=== FILE: README.md ===
# YL-3 eight-digit seven-segment display, modelled in Dafny

This project models a small TinyGo code base for a Raspberry Pi Pico. The
code drives a YL-3 board: eight seven-segment panels behind a pair of
shift registers, fed through three GPIO lines. The line names are data
(DIO), clock (SCK) and latch (RCK). The model covers:

- **the `tinygo_yl3_8x7` library** (`Yl3`):
  - the twelve `DIGIT_*` patterns and `DIGITS()`;
  - the `pulseDelay` setting;
  - `initialiseOutputPin`, `pulsePin`, `shiftOut`, `Initialise` and `WriteDigit`.
- **the `yl3driving` program** (`Yl3Driving`). It carries its own copy of
  the driver, with pins GP9/GP8/GP7 and a 150 µs pulse fixed. Each of its
  routines is proved to emit exactly what the library emits for those
  settings. Its `main` brings the three lines low, and one pass of its
  `displayDemo` loop matches the library demo's.
- **the `yl3demo` program** (`Demo`). One frame of `displayDemo` writes six
  random numerals, a blank panel and a one-segment "chaser". The chaser
  step runs 32 → 16 → 8 → 4 → 2 → 1 → 32, and the loop's timing
  bookkeeping is included.
- **the `mcp9808demo` program's `showDigits`** (`Thermometer`). The model
  starts from the integer `temp` (hundredths of a degree). The integer is
  split into eight decimal digits with Go's truncating division, and the
  panels are then written from a table lookup that panics on an index
  past the table's end.
- **the `switches` program's button logic** (`Switches`). This covers the
  `hasDebounced` window, the `onChangeRate` blink-rate step, the
  `ledActive` toggle, and one pass of the switched blink loop.

GPIO activity is data. Each pin configuration, level change or delay is an
event, `Configure`, `High`, `Low` or `Sleep` (in µs), so a routine is a
function or method that returns its trace (`Gpio`). Clock readings and
random draws are parameters.

The hardware side is `ShiftRegister`, a simulator that consumes a trace:
- a rising clock edge shifts the data line's level into a 16-bit register;
- a rising latch edge copies the register to the outputs;
- of the outputs, the first byte selects panels (bit p selects panel p)
  and the second byte is the segment pattern.

End-to-end lemmas show that the traces the driver produces make the chip
display what the caller asked for. `SevenSegment` decodes a pattern byte
into lit segments. A zero bit lights a segment, with bit 7 the decimal
point, then g, f, e, d, c, b and a (bit 0).

Go's fixed-width arithmetic is written out explicitly:
- `uint8` shifts (`Bytes.Shl8`) and `^` (`Bytes.Not8`);
- the wrap-around of `uint8(...)` (`Bytes.Wrap8`);
- truncating `/` and `%` (`Arith.TruncDiv`, `Arith.TruncRem`), which
  differ from Dafny's Euclidean division on negative operands.

## Model

| member | source | states |
|---|---|---|
| Yl3.Digits | tinygo_yl3_8x7/tinygo_yl3_8x7.go:19-50 | `DIGITS()` has twelve entries; entry n draws numeral n for n < 10, entry 10 the decimal point alone, entry 11 nothing |
| Yl3.DigitAt | tinygo_yl3_8x7/tinygo_yl3_8x7.go:35-50 | indexing `DIGITS()` succeeds exactly for indices 0..11 and yields that entry; any other index is Go's out-of-range panic |
| Yl3.TableDraws | tinygo_yl3_8x7/tinygo_yl3_8x7.go:19-32 | each `DIGIT_*` constant lights exactly the segments of the character it is named after |
| SevenSegment.DecodeEncode | tinygo_yl3_8x7/tinygo_yl3_8x7.go:7-9 | encoding a set of lit segments (zero = lit, decimal point at the MSB, segment a at the LSB) and decoding it gives the same set back |
| SevenSegment.EncodeDecode | tinygo_yl3_8x7/tinygo_yl3_8x7.go:7-9 | every pattern byte is the encoding of the segments it lights, so patterns and segment sets correspond one to one |
| Yl3.PulsePin | tinygo_yl3_8x7/tinygo_yl3_8x7.go:77-81 | a pulse drives the pin high once and then low, so it ends low; no other pin is touched; it waits exactly `pulseDelay` in all, and the pin is high for all of that wait |
| Yl3.ShiftOut | tinygo_yl3_8x7/tinygo_yl3_8x7.go:85-96 | the loop (test bit 7, set data, pulse clock, shift left) sends the byte's eight bits most significant first |
| Yl3.ShiftLoopSerial | tinygo_yl3_8x7/tinygo_yl3_8x7.go:87-95 | after n passes of the loop exactly the first n bits, MSB first, have been sent |
| Yl3.SerialLines | tinygo_yl3_8x7/tinygo_yl3_8x7.go:85-96 | the data line carries exactly the bits sent, in order; the clock rises once per bit and ends low; the latch is untouched |
| Yl3.SerialShifts | tinygo_yl3_8x7/tinygo_yl3_8x7.go:85-96 | on the chip, the bits sent end up as the last bits of the shift register, in order, with clock and latch unchanged |
| Yl3.WriteDigit | tinygo_yl3_8x7/tinygo_yl3_8x7.go:131-139 | a write is 67 events: the panel byte `1 << position` and the pattern byte, MSB first, then one latch pulse; every delay is `pulseDelay`, and the write waits 17 × `pulseDelay` in all |
| Yl3.WriteDigitPulseWidths | tinygo_yl3_8x7/tinygo_yl3_8x7.go:131-139 | with clock and latch low before a write, the clock is high for 16 × `pulseDelay`; the latch is low through the 16 bit pulses and high for one `pulseDelay`; both end low |
| Yl3.SerialClockHeld | tinygo_yl3_8x7/tinygo_yl3_8x7.go:85-96 | during a transfer the clock is high for one `pulseDelay` per bit and ends low |
| Yl3.SerialElapsed | tinygo_yl3_8x7/tinygo_yl3_8x7.go:85-96 | a transfer waits one `pulseDelay` per bit |
| Yl3.AddressOneHot | tinygo_yl3_8x7/tinygo_yl3_8x7.go:134 | `1 << position` as a uint8 has exactly bit `position` set for positions 0..7, and is 0 (no panel) from 8 on |
| Yl3.WriteDigitLines | tinygo_yl3_8x7/tinygo_yl3_8x7.go:131-139 | a write puts the 16 address-then-pattern bits on the data line, gives 16 clock pulses, and gives one latch pulse only after all 16 bits |
| Yl3.WriteDigitLatches | tinygo_yl3_8x7/tinygo_yl3_8x7.go:131-139 | from an idle chip, a write latches exactly the address bits followed by the pattern bits and leaves the chip idle |
| Yl3.WriteDigitDisplays | tinygo_yl3_8x7/tinygo_yl3_8x7.go:122-139 | after a write exactly panel `position` is selected (none from 8 on) and the displayed pattern is `pattern` |
| Yl3.WriteDigitRepeat | tinygo_yl3_8x7/tinygo_yl3_8x7.go:131-139 | writing the same digit twice leaves the display as one write does |
| Yl3.WriteAllLatchesLast | tinygo_yl3_8x7/tinygo_yl3_8x7.go:131-139 | a sequence of writes gives one latch pulse per write and leaves the last write on display |
| Yl3.Initialise | tinygo_yl3_8x7/tinygo_yl3_8x7.go:109-120 | Initialise records the three pins, then configures and lowers data, clock and latch in that order, never raising any line; each of the three pins ends low; the optional argument replaces `pulseDelay`, and without it the previous delay stays |
| Yl3.InitialiseNeverHigh | tinygo_yl3_8x7/tinygo_yl3_8x7.go:109-116 | the three `initialiseOutputPin(pin, false)` calls drive no pin high, whichever pins they name |
| Yl3.InitialiseLevels | tinygo_yl3_8x7/tinygo_yl3_8x7.go:109-116 | after the three `initialiseOutputPin(pin, false)` calls each of the three pins ends low, even when two of them are the same pin |
| Yl3.InitialiseIdles | tinygo_yl3_8x7/tinygo_yl3_8x7.go:109-116 | on distinct pins, Initialise leaves the chip's inputs low and its register and outputs as they were |
| Yl3.InitialiseSetsDelay | tinygo_yl3_8x7/tinygo_yl3_8x7.go:60 | every pause of a later write is the given delay, or 150 µs when none was ever given, and a write waits 17 such delays |
| Yl3.FirstDigitExample | tinygo_yl3_8x7/tinygo_yl3_8x7.go:109-139 | Initialise(9, 8, 7) and then writing "0" to panel 0 clocks out 00000001 11000000, gives 17 pulses of 150 µs (clock GP8 high for 2400 µs in all, latch GP7 high for 150 µs, 2550 µs of waiting) and latches those 16 bits |
| Bytes.ShlMsbBits | tinygo_yl3_8x7/tinygo_yl3_8x7.go:94 | `value << 1` on a uint8 drops the top bit and appends a zero |
| Bytes.Not8 | tinygo/yl3demo/yl3demo.go:45 | `^uint8(x)` inverts each of the eight bits |
| Demo.ChaserStep | tinygo/yl3demo/yl3demo.go:47-55 | on the ring {1, 2, 4, 8, 16, 32} the step halves the segment, and 1 goes back to 32 |
| Demo.ChaserOrbit | tinygo/yl3demo/yl3demo.go:29-55 | after n steps from 32 the segment is 2^(5 - n mod 6) |
| Demo.ChaserPeriod | tinygo/yl3demo/yl3demo.go:29-55 | the chaser repeats every six steps and no sooner |
| Demo.ChaserPatternLightsOne | tinygo/yl3demo/yl3demo.go:44-45 | `^uint8(circleSegment)` lights exactly one of the outer segments a..f, never the centre or the point |
| Demo.FrameWrites | tinygo/yl3demo/yl3demo.go:36-45 | a frame writes panels 0..7 in order: numerals for the six values, blank on panel 6, and on panel 7 exactly the outer segment whose bit the chaser holds, with the centre and point dark |
| Demo.ChaserLightsSegment | tinygo/yl3demo/yl3demo.go:44-45 | for a chaser value c on the ring, `^uint8(c)` lights outer segment k exactly when c is 2^k |
| Demo.Tick | tinygo/yl3demo/yl3demo.go:47-61 | once more than 250 ms have passed since `startCircle` the chaser takes one ChaserStep and `startCircle` becomes now, otherwise both stay; once more than a second has passed since `startRandom` the values are the newly drawn ones and `startRandom` becomes now, otherwise both stay |
| Demo.StepsSpaced | tinygo/yl3demo/yl3demo.go:47-61 | because a step restarts its timer, two consecutive chaser steps are more than 250 ms apart, and two consecutive redraws more than a second apart |
| Demo.RunFollowsOrbit | tinygo/yl3demo/yl3demo.go:29-61 | across any sequence of loop passes the chaser advances along its orbit by exactly the number of passes that moved it, ending at 2^(5 - moves mod 6) from the start |
| Demo.StartFollowsOrbit | tinygo/yl3demo/yl3demo.go:29-61 | from the loop's entry state (`circleSegment := 1 << 5`, both timers at the same reading) the chaser, after any run of passes, has taken exactly one step from segment 32 per pass that moved it (ChaserOrbit places that at 2^(5 - moves mod 6)) |
| Demo.StartupInitialisesFirst | tinygo/yl3demo/yl3demo.go:65-69 | start-up is Initialise(9, 8, 7), which only configures and lowers lines, followed by the first frame on pins 9/8/7 with 150 µs pulses |
| Demo.StartupLatchesChaser | tinygo/yl3demo/yl3demo.go:35-66 | after start-up the display holds the first frame's last write, the chaser on panel 7 |
| Yl3Driving.Digits | tinygo/yl3driving/yl3driving.go:12-25 | the program's own DIGITS array equals the library's table entry for entry |
| Yl3Driving.InitOutputPin | tinygo/yl3driving/yl3driving.go:39-46 | the program's `initOutputPin` emits what the library's `initialiseOutputPin` emits |
| Yl3Driving.PulsePin | tinygo/yl3driving/yl3driving.go:53-57 | the program's pulse is the library pulse with 150 µs |
| Yl3Driving.ShiftOut | tinygo/yl3driving/yl3driving.go:61-72 | the program's shift loop sends the byte MSB first, exactly as the library's does |
| Yl3Driving.WriteDigit | tinygo/yl3driving/yl3driving.go:85-93 | the program's writeDigit emits the library's WriteDigit trace for pins 9/8/7 |
| Yl3Driving.MainSetupIdles | tinygo/yl3driving/yl3driving.go:146-149 | main's latch, clock, data initialisation idles the chip like the library's Initialise(9, 8, 7), with the same driver settings |
| Yl3Driving.MainSetupReorders | tinygo/yl3driving/yl3driving.go:146-149 | main's set-up emits the same six events as Initialise(9, 8, 7) as a multiset, in a different order |
| Yl3Driving.DrawFrame | tinygo/yl3driving/yl3driving.go:117-126 | the program's frame loop emits the same writes as the library demo's frame |
| Yl3Driving.Bookkeeping | tinygo/yl3driving/yl3driving.go:128-142 | the program's timing bookkeeping advances the state exactly as the library demo's |
| Yl3Driving.DisplayDemoPass | tinygo/yl3driving/yl3driving.go:116-143 | one loop pass gives the library demo's frame trace and next state |
| Thermometer.ExtractDigits | tinygo/mcp9808demo/mcp9808demo.go:15-21 | the loop fills panel p with decimal digit 7 - p of temp under truncating division, as a wrapped uint8 |
| Thermometer.ShowFromWrites | tinygo/mcp9808demo/mcp9808demo.go:23-25 | the write loop writes panels in ascending order, each with the table entry for its digit; it stops at the first digit of 12 or more, and panics exactly when there is one |
| Thermometer.WriteDigits | tinygo/mcp9808demo/mcp9808demo.go:23-25 | the `range` loop with its table lookup behaves as described for ShowFromWrites |
| Thermometer.ShowDigits | tinygo/mcp9808demo/mcp9808demo.go:13-26 | showDigits from the integer temp is extraction followed by the write loop |
| Thermometer.NonNegativeShowsNumerals | tinygo/mcp9808demo/mcp9808demo.go:17-25 | a temp ≥ 0 never panics: all eight panels are written in order, each with the numeral of its decimal digit |
| Thermometer.DigitsSpellTemp | tinygo/mcp9808demo/mcp9808demo.go:17-21 | for temp ≥ 0 the eight digits read as a decimal number equal temp mod 10^8, and equal temp itself below 10^8 |
| Thermometer.LeadingZeroShown | tinygo/mcp9808demo/mcp9808demo.go:15-24 | leading zeros are not blanked: below 10^7 panel 0 shows the "0" pattern |
| Thermometer.NegativeDigits | tinygo/mcp9808demo/mcp9808demo.go:18-19 | for temp < 0 each digit is the negated digit of -temp, wrapped by `uint8(...)`: 0 stays 0, and d becomes 256 - d |
| Thermometer.NegativeDigitsWrap | tinygo/mcp9808demo/mcp9808demo.go:19 | for temp < 0 each digit is 0 or in 247..255 |
| Thermometer.NegativePanics | tinygo/mcp9808demo/mcp9808demo.go:19-24 | a temp < 0 panics at the table lookup exactly when Go's `temp % 10^8` is nonzero |
| Switches.HasDebounced | tinygo/switches/switches.go:54-70 | an edge from a new pin opens a window at now and is rejected; an edge from the window's pin is accepted exactly when now − start ≥ 100 ms; acceptance resets the pin to GP0 and keeps the start; a rejected edge from the window's pin changes nothing |
| Switches.PressProtocol | tinygo/switches/switches.go:51-70 | from a closed window, a button's first edge is always rejected; a second edge is accepted exactly when it comes ≥ 100 ms later; after acceptance the next edge is a first edge again |
| Switches.BouncesRejected | tinygo/switches/switches.go:57-63 | any run of bounces within 100 ms of the window's start is rejected and leaves the window as it was |
| Switches.OtherButtonRestarts | tinygo/switches/switches.go:57-60 | an edge from another button takes over the window, so the first button's next edge is rejected and opens a fresh window |
| Switches.NextRate | tinygo/switches/switches.go:74-78 | a rate of 100 ms or less wraps to 500, any other rate drops by 100; within (0, 500] the result is 500 exactly when the rate was 100, and stays within (0, 500] |
| Switches.OnChangeRate | tinygo/switches/switches.go:72-80 | an accepted edge sets the rate to NextRate of the old rate, a rejected edge leaves it, and the rate stays within (0, 500]; every other field, the debounce window included, is what hasDebounced leaves |
| Switches.RateEdgesStep | tinygo/switches/switches.go:72-80 | after any run of rate-button edges, the rate is NextRate applied once per edge the debounce check accepted |
| Switches.RateEdgesFromStart | tinygo/switches/switches.go:11-80 | from the program's start, once k ≥ 3 edges have been accepted the rate is 500 − 100·((k − 3) mod 5) |
| Switches.RatesFromStart | tinygo/switches/switches.go:11-21 | from the initial 250 ms, accepted edges give 150, 50, 500, 400, 300, 200, 100, 500 |
| Switches.RateCycle | tinygo/switches/switches.go:74-78 | from 500 ms the rate after n accepted edges is 500 − 100·(n mod 5) |
| Switches.Toggle | tinygo/switches/switches.go:92-94 | the toggle handler flips `ledActive` and changes nothing else |
| Switches.ToggleTwice | tinygo/switches/switches.go:92-94 | two toggles restore the state |
| Switches.FirstRateChange | tinygo/switches/switches.go:72-80 | from the program's start, the first rate-button edge leaves 250 ms and a second one ≥ 100 ms later makes it 150 ms |
| Switches.BlinkPass | tinygo/switches/switches.go:38-47 | one pass of the switched blink loop drives the LED low then high when active, and only low otherwise; the LED is held low for blinkRate ms, and high for blinkRate ms when active and not at all otherwise, so the pass takes one or two blinkRate periods |
| Switches.Interrupt | tinygo/switches/switches.go:82-106 | a rising edge on GP16 runs the toggle handler, a falling edge on GP17 runs onChangeRate, and every other pin or edge leaves the state unchanged |
| Switches.TogglePressDarkens | tinygo/switches/switches.go:35-47 | after one GP16 press from start-up, a pass of the white LED's (GP15) loop keeps it low for all of its 250 ms |

## Left out

- Pin configuration details (`machine.PinConfig`, pull-downs, I2C set-up) are reduced to a `Configure` event. `time.Sleep` is a `Sleep` event. `time.Now`, `time.Since` and `UnixMilli` are clock readings passed as parameters.
- Goroutines, the endless `for` loops in every `main` and demo, and the registration mechanics of `SetInterrupt` are left out (which handler each button's edge calls is modelled); single frames, passes and handler calls are modelled instead. The switches program's handlers are modelled as running one at a time on a shared state; interrupt preemption is not modelled.
- `rand.Intn(10)` is a parameter: the freshly drawn values, required to be six digits 0..9.
- `lowHigh` (the unswitched green blink) and the switches program's `main` are not modelled; `lowHighSwitched` is modelled for one pass only.
- The `tinygo_mcp9808` package (I2C temperature read) and the float part of `showDigits` (`math.Trunc(float64(value) * 100)`) are not part of this model; `showDigits` is modelled from the integer it produces.
- Thermometer.ExtractDigits: Go's `int` is 64 bits wide and the model's integers are unbounded; for the values `showDigits` divides, no intermediate result overflows, so the difference is not modelled.
- Switches.HasDebounced: `int64` millisecond arithmetic is modelled on unbounded integers; overflow of `now − debounceStart` is not modelled.
- Demo.Tick: the Go loop reads the clock separately for each `time.Since` and `time.Now`; the model uses one reading per pass.
- The `blinky`, `concurrentblinky` and `multifileapp` programs are outside the display and switches logic and are not modelled.
- The library's header comment names the shift registers as 74HC165 parts. The protocol the code drives is that of a serial-in, latched-output register such as the 74HC595, and that is what `ShiftRegister` simulates.

=== FILE: arith.dfy ===
/** Integer facts shared by the byte and decimal models, and Go's truncating
    division, which differs from Dafny's Euclidean `/` on negative operands. */
module Arith {

  function Pow2(k: nat): (r: nat)
    ensures r >= 1
  {
    if k == 0 then 1 else 2 * Pow2(k - 1)
  }

  function Pow10(k: nat): (r: nat)
    ensures r >= 1
  {
    if k == 0 then 1 else 10 * Pow10(k - 1)
  }

  /** Go's `a / b` for a positive divisor: the quotient is truncated toward zero. */
  function TruncDiv(a: int, b: int): int
    requires b > 0
  {
    if a >= 0 then a / b else -((-a) / b)
  }

  /** Go's `a % b`, written the way the display code spells it: `a - (a / b) * b`. */
  function TruncRem(a: int, b: int): int
    requires b > 0
  {
    a - TruncDiv(a, b) * b
  }

  lemma MulAtLeast(d: int, m: int)
    requires d >= 1 && m > 0
    ensures d * m >= m
  {
  }

  lemma MulGrows(a: int, b: int)
    requires a >= 1 && b >= 2
    ensures a * b > a
  {
  }

  lemma MulBelow(d: int, m: int, n: int)
    requires 0 <= d < n && m > 0
    ensures d * m <= (n - 1) * m
  {
  }

  lemma Distrib(x: int, y: int, m: int)
    ensures x * m - y * m == (x - y) * m
  {
  }

  lemma AddMul(a: int, b: int, m: int)
    ensures (a + b) * m == a * m + b * m
  {
  }

  lemma SubMul(a: int, b: int, c: int, m: int)
    ensures (a - b - c) * m == a * m - b * m - c * m
  {
  }

  lemma MulAssoc(a: int, b: int, c: int)
    ensures a * (b * c) == (a * b) * c
  {
  }

  /** Division is determined by any decomposition with an in-range remainder. */
  lemma DivModUnique(a: int, m: int, q: int, r: int)
    requires m > 0 && 0 <= r < m && a == q * m + r
    ensures a / m == q && a % m == r
  {
    var q0, r0 := a / m, a % m;
    assert a == q0 * m + r0;
    Distrib(q0, q, m);
    if q0 > q {
      MulAtLeast(q0 - q, m);
    } else if q0 < q {
      MulAtLeast(q - q0, m);
      Distrib(q, q0, m);
    }
  }

  lemma {:induction false} Pow2Add(a: nat, b: nat)
    ensures Pow2(a + b) == Pow2(a) * Pow2(b)
    decreases a
  {
    if a > 0 {
      Pow2Add(a - 1, b);
      assert Pow2(a + b) == 2 * Pow2(a - 1 + b);
      MulAssoc(2, Pow2(a - 1), Pow2(b));
    }
  }

  /** Dividing by m and then by n is dividing by m * n, and the remainders nest. */
  lemma DivDiv(a: nat, m: nat, n: nat)
    requires m > 0 && n > 0
    ensures (a / m) / n == a / (m * n)
    ensures a % (m * n) == ((a / m) % n) * m + a % m
  {
    var q, r := a / m, a % m;
    var q2, r2 := q / n, q % n;
    assert a == q * m + r;
    assert q == q2 * n + r2;
    assert q * m == q2 * (n * m) + r2 * m by {
      assert q * m == (q2 * n + r2) * m;
      MulAssoc(q2, n, m);
    }
    MulBelow(r2, m, n);
    assert 0 <= r2 * m + r < m * n;
    DivModUnique(a, m * n, q2, r2 * m + r);
  }

  lemma TruncOfNonNegative(a: int, b: int)
    requires a >= 0 && b > 0
    ensures TruncDiv(a, b) == a / b && TruncRem(a, b) == a % b
  {
  }

  /** Truncating division is odd in its dividend: the sign moves outside. */
  lemma TruncOfNegated(a: int, b: int)
    requires a >= 0 && b > 0
    ensures TruncDiv(-a, b) == -(a / b) && TruncRem(-a, b) == -(a % b)
  {
    if a == 0 {
      assert TruncDiv(-a, b) == 0;
    }
  }
}

=== FILE: bytes.dfy ===
/** Go's `uint8` and the bit operations the display driver applies to it. */
module Bytes {
  import opened Arith

  type uint8 = x: int | 0 <= x < 0x100
  type uint16 = x: int | 0 <= x < 0x1_0000

  /** Bit k of v, bit 0 being the least significant. */
  predicate Bit(v: uint8, k: nat) {
    (v / Pow2(k)) % 2 == 1
  }

  /** Go's `v << n` on a uint8: bits pushed past bit 7 are lost, so any n >= 8 gives 0. */
  function Shl8(v: uint8, n: nat): uint8 {
    (v * Pow2(n)) % 0x100
  }

  /** Go's `^v` on a uint8: every one of the eight bits is inverted. */
  function Not8(v: uint8): (r: uint8)
    ensures forall k :: 0 <= k < 8 ==> (Bit(r, k) <==> !Bit(v, k))
  {
    NotBits(v);
    0xFF - v
  }

  /** Go's `uint8(x)` conversion of an integer: two's complement truncation. */
  function Wrap8(x: int): uint8 {
    x % 0x100
  }

  /** The eight bits of v, most significant first. */
  function MsbBits(v: uint8): (bits: seq<bool>)
    ensures |bits| == 8
  {
    seq(8, i requires 0 <= i < 8 => Bit(v, 7 - i))
  }

  /** The number a bit string denotes, reading its first bit as the most significant. */
  function Value(bits: seq<bool>): nat
  {
    if |bits| == 0 then 0
    else (if bits[0] then Pow2(|bits| - 1) else 0) + Value(bits[1..])
  }

  function Weight(bit: bool, w: nat): nat {
    if bit then w else 0
  }

  /** The first bit of a string weighs 2^(n - 1) for a string of length n. */
  lemma ValueStep(bits: seq<bool>, w: nat)
    requires |bits| > 0 && w == Pow2(|bits| - 1)
    ensures Value(bits) == Weight(bits[0], w) + Value(bits[1..])
  {
  }

  lemma Pow2Small()
    ensures Pow2(0) == 1 && Pow2(1) == 2 && Pow2(2) == 4 && Pow2(3) == 8
    ensures Pow2(4) == 16 && Pow2(5) == 32 && Pow2(6) == 64 && Pow2(7) == 128 && Pow2(8) == 256
  {
  }

  /** The value of eight bits, spelled out with their weights. */
  lemma ValueOfEight(bits: seq<bool>)
    requires |bits| == 8
    ensures Value(bits) == Weight(bits[0], 128) + Weight(bits[1], 64) + Weight(bits[2], 32) + Weight(bits[3], 16)
                         + Weight(bits[4], 8) + Weight(bits[5], 4) + Weight(bits[6], 2) + Weight(bits[7], 1)
  {
    Pow2Small();
    var s1 := bits[1..];
    var s2 := s1[1..];
    var s3 := s2[1..];
    var s4 := s3[1..];
    var s5 := s4[1..];
    var s6 := s5[1..];
    var s7 := s6[1..];
    ValueStep(bits, 128);
    ValueStep(s1, 64);
    ValueStep(s2, 32);
    ValueStep(s3, 16);
    ValueStep(s4, 8);
    ValueStep(s5, 4);
    ValueStep(s6, 2);
    ValueStep(s7, 1);
    assert Value(s7[1..]) == 0;
    assert s1[0] == bits[1] && s2[0] == bits[2] && s3[0] == bits[3] && s4[0] == bits[4];
    assert s5[0] == bits[5] && s6[0] == bits[6] && s7[0] == bits[7];
  }

  /** Bit k of a number is the parity of its quotient by 2^k. */
  lemma BitOfQuotient(x: uint8, k: nat, q: int, r: int)
    requires 0 <= r < Pow2(k) && x == q * Pow2(k) + r
    ensures Bit(x, k) == (q % 2 == 1)
  {
    DivModUnique(x, Pow2(k), q, r);
  }

  /** 2^(8 - k) and 2^k multiply to 256, and the first is even. */
  lemma Complement(k: nat)
    requires k < 8
    ensures Pow2(8 - k) * Pow2(k) == 256 && Pow2(8 - k) % 2 == 0
  {
    Pow2Add(8 - k, k);
    assert 8 - k + k == 8;
    Pow2Small();
  }

  lemma ComplementSplit(v: int, m: int, e: int, q: int, r: int)
    requires e * m == 256 && v == q * m + r
    ensures 0xFF - v == (e - 1 - q) * m + (m - 1 - r)
  {
    SubMul(e, 1, q, m);
  }

  /** Subtracting from an odd number flips parity. */
  lemma ParityFlip(e: int, q: int)
    requires e % 2 == 0
    ensures (e - 1 - q) % 2 == 1 <==> q % 2 != 1
  {
  }

  lemma NotBit(v: uint8, k: nat)
    requires k < 8
    ensures Bit(0xFF - v, k) <==> !Bit(v, k)
  {
    var m := Pow2(k);
    var q, r := v / m, v % m;
    assert v == q * m + r;
    var e := Pow2(8 - k);
    Complement(k);
    ComplementSplit(v, m, e, q, r);
    BitOfQuotient(0xFF - v, k, e - 1 - q, m - 1 - r);
    BitOfQuotient(v, k, q, r);
    ParityFlip(e, q);
  }

  lemma NotBits(v: uint8)
    ensures forall k :: 0 <= k < 8 ==> (Bit(0xFF - v, k) <==> !Bit(v, k))
  {
    forall k | 0 <= k < 8
      ensures Bit(0xFF - v, k) <==> !Bit(v, k)
    {
      NotBit(v, k);
    }
  }

  lemma Double(q: int, m: int)
    ensures q * (2 * m) == 2 * (q * m)
  {
  }

  lemma Shl1(v: uint8)
    ensures Shl8(v, 1) == (if v < 0x80 then 2 * v else 2 * v - 0x100)
  {
    assert Pow2(1) == 2;
  }

  /** Subtracting an even number keeps parity. */
  lemma ParityKeep(q: int, e: int)
    requires e % 2 == 0
    ensures (q - e) % 2 == q % 2
  {
  }

  /** One left shift moves bit k to bit k + 1. */
  lemma ShlBit(v: uint8, k: nat)
    requires k < 7
    ensures Bit(Shl8(v, 1), k + 1) == Bit(v, k)
  {
    var m := Pow2(k);
    var q, r := v / m, v % m;
    assert v == q * m + r;
    BitOfQuotient(v, k, q, r);
    var m2 := Pow2(k + 1);
    assert m2 == 2 * m;
    Double(q, m);
    assert 2 * v == q * m2 + 2 * r;
    Shl1(v);
    if v < 0x80 {
      BitOfQuotient(2 * v, k + 1, q, 2 * r);
    } else {
      var e := Pow2(8 - (k + 1));
      Complement(k + 1);
      Distrib(q, e, m2);
      BitOfQuotient(2 * v - 256, k + 1, q - e, 2 * r);
      ParityKeep(q, e);
    }
  }

  /** One left shift drops the most significant bit and appends a zero. */
  lemma ShlMsbBits(v: uint8)
    ensures MsbBits(Shl8(v, 1)) == MsbBits(v)[1..] + [false]
  {
    var w := Shl8(v, 1);
    forall i | 0 <= i < 7
      ensures MsbBits(w)[i] == MsbBits(v)[i + 1]
    {
      ShlBit(v, 6 - i);
    }
    Shl1(v);
    assert !Bit(w, 0) by {
      assert Pow2(0) == 1;
    }
  }

  lemma {:induction false} ValueBound(bits: seq<bool>)
    ensures Value(bits) < Pow2(|bits|)
    decreases |bits|
  {
    if |bits| > 0 {
      ValueBound(bits[1..]);
    }
  }

  /** The low n + 1 bits of v are bit n followed by the low n bits. */
  lemma LowBitsSplit(v: nat, n: nat)
    ensures v % Pow2(n + 1) == (if (v / Pow2(n)) % 2 == 1 then Pow2(n) else 0) + v % Pow2(n)
  {
    assert Pow2(n + 1) == Pow2(n) * 2;
    DivDiv(v, Pow2(n), 2);
  }

  /** Reading the top n bits of v (MSB first) gives back v modulo 2^n. */
  lemma {:induction false} ValueOfLowBits(v: uint8, n: nat)
    requires n <= 8
    ensures Value(seq(n, i requires 0 <= i < n => Bit(v, n - 1 - i))) == v % Pow2(n)
  {
    var bits := seq(n, i requires 0 <= i < n => Bit(v, n - 1 - i));
    if n > 0 {
      var rest := seq(n - 1, i requires 0 <= i < n - 1 => Bit(v, n - 2 - i));
      assert bits[1..] == rest;
      assert bits[0] == Bit(v, n - 1);
      ValueStep(bits, Pow2(n - 1));
      ValueOfLowBits(v, n - 1);
      LowBitsSplit(v, n - 1);
      assert Value(bits) == Weight(Bit(v, n - 1), Pow2(n - 1)) + v % Pow2(n - 1);
      assert v % Pow2(n - 1 + 1) == Weight(Bit(v, n - 1), Pow2(n - 1)) + v % Pow2(n - 1);
    }
  }

  /** Sending a byte's bits MSB first and reassembling them loses nothing. */
  lemma ValueOfMsbBits(v: uint8)
    ensures Value(MsbBits(v)) == v
  {
    ValueOfLowBits(v, 8);
    assert MsbBits(v) == seq(8, i requires 0 <= i < 8 => Bit(v, 8 - 1 - i));
    assert Pow2(8) == 256;
  }

  /** Adding a multiple of 2^(k + 1) leaves bit k alone. */
  lemma BitAddHigh(x: uint8, k: nat, c: nat)
    requires x + c * Pow2(k + 1) < 0x100
    ensures Bit(x + c * Pow2(k + 1), k) == Bit(x, k)
  {
    var m := Pow2(k);
    var q, r := x / m, x % m;
    assert x == q * m + r;
    BitOfQuotient(x, k, q, r);
    assert Pow2(k + 1) == 2 * m;
    HighSplit(x, c, m, q, r);
    BitOfQuotient(x + c * Pow2(k + 1), k, q + 2 * c, r);
    ParityKeep(q + 2 * c, 2 * c);
  }

  lemma HighSplit(x: int, c: int, m: int, q: int, r: int)
    requires x == q * m + r
    ensures x + c * (2 * m) == (q + 2 * c) * m + r
  {
    MulAssoc(c, 2, m);
    AddMul(q, 2 * c, m);
  }

  lemma Pow2AtMost256(n: nat)
    requires n <= 8
    ensures Pow2(n) <= 0x100
  {
    if n < 8 {
      Pow2Below(n);
    } else {
      assert Pow2(8) == 256;
    }
  }

  /** Bit k of the number a bit string denotes is the string's k-th bit from the end. */
  lemma {:induction false} BitOfValue(bits: seq<bool>, k: nat)
    requires k < |bits| <= 8
    ensures Value(bits) < 0x100
    ensures Bit(Value(bits), k) == bits[|bits| - 1 - k]
    decreases |bits|
  {
    var n := |bits|;
    var rest := bits[1..];
    ValueBound(bits);
    ValueBound(rest);
    Pow2AtMost256(n);
    var w := Pow2(n - 1);
    ValueStep(bits, w);
    if k == n - 1 {
      BitOfQuotient(Value(bits), k, if bits[0] then 1 else 0, Value(rest));
    } else {
      BitOfValue(rest, k);
      if bits[0] {
        var c := Pow2(n - 2 - k);
        Pow2Add(n - 2 - k, k + 1);
        assert n - 2 - k + (k + 1) == n - 1;
        BitAddHigh(Value(rest), k, c);
      }
    }
  }

  /** Reassembling eight bits and splitting the byte again gives the same bits. */
  lemma MsbBitsOfValue(bits: seq<bool>)
    requires |bits| == 8
    ensures Value(bits) < 0x100
    ensures MsbBits(Value(bits)) == bits
  {
    ValueBound(bits);
    Pow2AtMost256(8);
    forall i | 0 <= i < 8
      ensures MsbBits(Value(bits))[i] == bits[i]
    {
      BitOfValue(bits, 7 - i);
    }
  }

  lemma Pow2Below(j: nat)
    requires j < 8
    ensures Pow2(j) < 0x100
  {
    Pow2Add(j, 8 - j);
    assert j + (8 - j) == 8;
    assert Pow2(8) == 256;
    MulAtLeast(Pow2(8 - j), Pow2(j));
  }

  lemma Pow2BitBelow(j: nat, k: nat)
    requires k < j < 8
    ensures Pow2(j) < 0x100
    ensures !Bit(Pow2(j), k)
  {
    Pow2Below(j);
    var pj, pk := Pow2(j), Pow2(k);
    var e := Pow2(j - k);
    Pow2Add(k, j - k);
    assert k + (j - k) == j;
    assert pj == pk * e;
    assert e == 2 * Pow2(j - k - 1);
    assert pj / pk == e by {
      DivModUnique(pj, pk, e, 0);
    }
  }

  lemma Pow2BitAbove(j: nat, k: nat)
    requires j < k && j < 8
    ensures Pow2(j) < 0x100
    ensures !Bit(Pow2(j), k)
  {
    Pow2Below(j);
    var pj, pk := Pow2(j), Pow2(k);
    var e := Pow2(k - j);
    Pow2Add(j, k - j);
    assert j + (k - j) == k;
    assert pk == pj * e;
    assert e >= 2 by {
      assert e == 2 * Pow2(k - j - 1);
    }
    MulGrows(pj, e);
    assert pj / pk == 0 by {
      DivModUnique(pj, pk, 0, pj);
    }
  }

  /** A power of two below 2^8 has exactly one bit set. */
  lemma Pow2OneHot(j: nat, k: nat)
    requires j < 8 && k < 8
    ensures Pow2(j) < 0x100
    ensures Bit(Pow2(j), k) <==> k == j
  {
    Pow2Below(j);
    if k < j {
      Pow2BitBelow(j, k);
    } else if k == j {
      assert Pow2(j) == 1 * Pow2(k) + 0;
      BitOfQuotient(Pow2(j), k, 1, 0);
    } else {
      Pow2BitAbove(j, k);
    }
  }

  /** Go's `1 << n` on a uint8 is 2^n for n < 8 and 0 from n = 8 on. */
  lemma ShlOne(n: nat)
    ensures n < 8 ==> Shl8(1, n) == Pow2(n)
    ensures n >= 8 ==> Shl8(1, n) == 0
  {
    assert 1 * Pow2(n) == Pow2(n);
    if n < 8 {
      Pow2Below(n);
    } else {
      Pow2Add(8, n - 8);
      assert 8 + (n - 8) == n;
      Pow2Small();
      MultipleOf256(Pow2(n - 8));
    }
  }

  lemma MultipleOf256(x: nat)
    ensures (256 * x) % 0x100 == 0
  {
    DivModUnique(256 * x, 0x100, x, 0);
  }
}

=== FILE: demo.dfy ===
/** The display demo (program yl3demo): each frame writes six random
    numerals, a blank panel, and one lit segment of a "chaser" that walks
    round the outer ring of the right-most panel. The endless loop and the
    random numbers are outside the model: a frame is computed from the
    current digit values and chaser position, and a tick advances the state
    from a clock reading. */
module Demo {
  import opened Arith
  import opened Bytes
  import opened Gpio
  import SevenSegment
  import ShiftRegister
  import Yl3

  /** `circleSegment := 1 << 5`: the chaser starts at the top-left segment. */
  const CircleStart: int := 32

  /** The values the chaser takes: one bit for each outer segment. */
  const Ring: set<int> := {1, 2, 4, 8, 16, 32}

  /** The frame delays, in nanoseconds (Go's time.Duration). */
  const CircleDelay: int := 250_000_000
  const RandomDelay: int := 1_000_000_000

  /** One chaser step: shift right while above 1, otherwise wrap round with `<< 5`. */
  function ChaserStep(c: int): (r: int)
    ensures c in Ring ==> r in Ring && r != c
    ensures c in Ring && c > 1 ==> 2 * r == c
    ensures c == 1 ==> r == CircleStart
  {
    if c > 1 then c / 2 else c * 32
  }

  /** The chaser after n steps. */
  function ChaserAfter(c: int, n: nat): int
  {
    if n == 0 then c else ChaserStep(ChaserAfter(c, n - 1))
  }

  /** From its start the chaser visits 32, 16, 8, 4, 2, 1 and repeats with period 6. */
  lemma {:induction false} ChaserOrbit(n: nat)
    ensures ChaserAfter(CircleStart, n) == Pow2(5 - n % 6)
    ensures ChaserAfter(CircleStart, n) in Ring
  {
    assert Pow2(0) == 1 && Pow2(1) == 2 && Pow2(2) == 4 && Pow2(3) == 8 && Pow2(4) == 16 && Pow2(5) == 32;
    if n > 0 {
      ChaserOrbit(n - 1);
      var j := (n - 1) % 6;
      if j < 5 {
        assert n % 6 == j + 1;
        assert Pow2(5 - j) == 2 * Pow2(5 - (j + 1));
      } else {
        assert n % 6 == 0;
      }
    }
  }

  /** Six steps bring every ring position back, and no fewer do. */
  lemma ChaserPeriod(k: nat)
    requires 0 < k < 6
    ensures forall n: nat :: ChaserAfter(CircleStart, n + 6) == ChaserAfter(CircleStart, n)
    ensures forall n: nat :: ChaserAfter(CircleStart, n + k) != ChaserAfter(CircleStart, n)
  {
    forall n: nat
      ensures ChaserAfter(CircleStart, n + 6) == ChaserAfter(CircleStart, n)
      ensures ChaserAfter(CircleStart, n + k) != ChaserAfter(CircleStart, n)
    {
      ChaserOrbit(n);
      ChaserOrbit(n + 6);
      ChaserOrbit(n + k);
      assert (n + 6) % 6 == n % 6;
      assert (n + k) % 6 != n % 6;
      Pow2Distinct(5 - (n + k) % 6, 5 - n % 6);
    }
  }

  lemma Pow2Distinct(a: nat, b: nat)
    requires a < b <= 5 || b < a <= 5
    ensures Pow2(a) != Pow2(b)
  {
    assert Pow2(0) == 1 && Pow2(1) == 2 && Pow2(2) == 4 && Pow2(3) == 8 && Pow2(4) == 16 && Pow2(5) == 32;
  }

  /** The right-most panel's pattern, `^uint8(circleSegment)`. */
  function ChaserPattern(c: int): uint8 {
    Not8(Wrap8(c))
  }

  /** With the chaser on segment j, every bit but bit j of its pattern is set. */
  lemma ChaserPatternBits(j: nat)
    requires j < 6
    ensures Pow2(j) in Ring
    ensures forall k :: 0 <= k < 8 ==> (Bit(ChaserPattern(Pow2(j)), k) <==> k != j)
  {
    assert Pow2(0) == 1 && Pow2(1) == 2 && Pow2(2) == 4 && Pow2(3) == 8 && Pow2(4) == 16 && Pow2(5) == 32;
    Pow2Below(j);
    var p := ChaserPattern(Pow2(j));
    forall k | 0 <= k < 8
      ensures Bit(p, k) <==> k != j
    {
      Pow2OneHot(j, k);
    }
  }

  /** With the chaser on segment j, exactly that outer segment is lit, and
      the center segment and decimal point stay dark. */
  lemma ChaserPatternLightsOne(j: nat)
    requires j < 6
    ensures var glyph := SevenSegment.Decode(ChaserPattern(Pow2(j)));
      && SevenSegment.Outer(glyph) == seq(6, k requires 0 <= k < 6 => k == j)
      && !glyph.g && !glyph.dp
  {
    ChaserPatternBits(j);
    var p := ChaserPattern(Pow2(j));
    var bits := MsbBits(p);
    var glyph := SevenSegment.Decode(p);
    assert glyph.a == !bits[7] == (0 == j);
    assert glyph.b == !bits[6] == (1 == j);
    assert glyph.c == !bits[5] == (2 == j);
    assert glyph.d == !bits[4] == (3 == j);
    assert glyph.e == !bits[3] == (4 == j);
    assert glyph.f == !bits[2] == (5 == j);
    assert !glyph.g == bits[1];
    assert !glyph.dp == bits[0];
    OnlyAt(SevenSegment.Outer(glyph), j);
  }

  /** With the chaser on value c of the ring, the lit outer segment is the
      one whose bit c is. */
  lemma ChaserLightsSegment(c: int)
    ensures c in Ring ==> var glyph := SevenSegment.Decode(ChaserPattern(c));
      && SevenSegment.Outer(glyph) == seq(6, k requires 0 <= k < 6 => Pow2(k) == c)
      && !glyph.g && !glyph.dp
  {
    if c in Ring {
      var j: nat := if c == 1 then 0 else if c == 2 then 1 else if c == 4 then 2
                    else if c == 8 then 3 else if c == 16 then 4 else 5;
      assert Pow2(0) == 1 && Pow2(1) == 2 && Pow2(2) == 4 && Pow2(3) == 8 && Pow2(4) == 16 && Pow2(5) == 32;
      assert Pow2(j) == c;
      ChaserPatternLightsOne(j);
      forall k | 0 <= k < 6
        ensures (k == j) == (Pow2(k) == c)
      {
        if k != j {
          Pow2Distinct(k, j);
        }
      }
      assert seq(6, k requires 0 <= k < 6 => k == j) == seq(6, k requires 0 <= k < 6 => Pow2(k) == c);
    }
  }

  lemma OnlyAt(s: seq<bool>, j: nat)
    requires |s| == 6 && forall k :: 0 <= k < 6 ==> s[k] == (k == j)
    ensures s == seq(6, k requires 0 <= k < 6 => k == j)
  {
  }

  /** Random numerals as rand.Intn(10) yields them: six values in [0, 9]. */
  predicate ValidValues(values: seq<nat>) {
    |values| == 6 && forall i :: 0 <= i < 6 ==> values[i] <= 9
  }

  /** One frame's WriteDigit calls: the six numerals, blank ("OFF"), and the chaser. */
  function FrameWrites(values: seq<nat>, segment: int): (w: seq<Yl3.Write>)
    requires ValidValues(values)
    ensures |w| == 8
    ensures forall p :: 0 <= p < 8 ==> w[p].position == p
    ensures forall p :: 0 <= p < 6 ==> SevenSegment.Decode(w[p].pattern) == SevenSegment.Numeral(values[p])
    ensures SevenSegment.Decode(w[6].pattern) == SevenSegment.Blank
    ensures segment in Ring ==> var glyph := SevenSegment.Decode(w[7].pattern);
      && SevenSegment.Outer(glyph) == seq(6, k requires 0 <= k < 6 => Pow2(k) == segment)
      && !glyph.g && !glyph.dp
  {
    ChaserLightsSegment(segment);
    var table := Yl3.Digits();
    var numerals := seq(6, p requires 0 <= p < 6 => Yl3.Write(p, table[values[p]]));
    numerals + [Yl3.Write(6, 0xFF), Yl3.Write(7, ChaserPattern(segment))]
  }

  /** The GPIO activity of one frame. */
  function FrameTrace(d: Yl3.Driver, values: seq<nat>, segment: int): (t: Trace)
    requires ValidValues(values)
    ensures |t| == 8 * 67
  {
    Yl3.WriteAll(d, FrameWrites(values, segment))
  }

  /** The demo loop's state between frames. */
  datatype DemoState = DemoState(values: seq<nat>, segment: int, startCircle: int, startRandom: int)

  predicate Valid(s: DemoState) {
    ValidValues(s.values) && s.segment in Ring
  }

  /** The state entering the loop, at clock reading now. */
  function Start(values: seq<nat>, now: int): (s: DemoState)
    requires ValidValues(values)
    ensures Valid(s)
  {
    DemoState(values, CircleStart, now, now)
  }

  /** The bookkeeping after a frame: the chaser steps once more than 250 ms
      have passed since its last step, and the numerals are replaced by
      newly drawn random ones once more than a second has passed. */
  function Tick(s: DemoState, now: int, drawn: seq<nat>): (r: DemoState)
    requires Valid(s) && ValidValues(drawn)
    ensures Valid(r)
    ensures r.segment != s.segment <==> now - s.startCircle > CircleDelay
    ensures r.segment == (if now - s.startCircle > CircleDelay then ChaserStep(s.segment) else s.segment)
    ensures r.startCircle == (if now - s.startCircle > CircleDelay then now else s.startCircle)
    ensures r.values == (if now - s.startRandom > RandomDelay then drawn else s.values)
    ensures r.startRandom == (if now - s.startRandom > RandomDelay then now else s.startRandom)
  {
    var stepped := now - s.startCircle > CircleDelay;
    var refreshed := now - s.startRandom > RandomDelay;
    DemoState(if refreshed then drawn else s.values,
              if stepped then ChaserStep(s.segment) else s.segment,
              if stepped then now else s.startCircle,
              if refreshed then now else s.startRandom)
  }

  /** A chaser step restarts its timer: two steps in a row are more than
      250 ms apart, and so are two redraws of the numerals. */
  lemma StepsSpaced(s: DemoState, now1: int, drawn1: seq<nat>, now2: int, drawn2: seq<nat>)
    requires Valid(s) && ValidValues(drawn1) && ValidValues(drawn2)
    ensures var r1 := Tick(s, now1, drawn1);
      var r2 := Tick(r1, now2, drawn2);
      && (r1.segment != s.segment && r2.segment != r1.segment ==> now2 - now1 > CircleDelay)
      && (r1.startRandom != s.startRandom && r2.startRandom != r1.startRandom ==> now2 - now1 > RandomDelay)
  {
  }

  /** The loop's state after one tick per clock reading. */
  function Run(s: DemoState, nows: seq<int>, draws: seq<seq<nat>>): (r: DemoState)
    requires Valid(s) && |draws| == |nows|
    requires forall i :: 0 <= i < |draws| ==> ValidValues(draws[i])
    ensures Valid(r)
    decreases |nows|
  {
    if |nows| == 0 then s else Run(Tick(s, nows[0], draws[0]), nows[1..], draws[1..])
  }

  /** How many of those ticks move the chaser. */
  function Moves(s: DemoState, nows: seq<int>, draws: seq<seq<nat>>): nat
    requires Valid(s) && |draws| == |nows|
    requires forall i :: 0 <= i < |draws| ==> ValidValues(draws[i])
    decreases |nows|
  {
    if |nows| == 0 then 0
    else (if nows[0] - s.startCircle > CircleDelay then 1 else 0)
         + Moves(Tick(s, nows[0], draws[0]), nows[1..], draws[1..])
  }

  /** The running demo stays on the chaser's orbit: after any run of ticks
      from the start, the chaser has advanced by exactly the number of
      ticks that moved it, and so sits at 2^(5 - moves mod 6). */
  lemma RunFollowsOrbit(s: DemoState, n: nat, nows: seq<int>, draws: seq<seq<nat>>)
    requires Valid(s) && |draws| == |nows|
    requires forall i :: 0 <= i < |draws| ==> ValidValues(draws[i])
    requires s.segment == ChaserAfter(CircleStart, n)
    ensures Run(s, nows, draws).segment == ChaserAfter(CircleStart, n + Moves(s, nows, draws))
    ensures Run(s, nows, draws).segment == Pow2(5 - (n + Moves(s, nows, draws)) % 6)
  {
    RunAdvances(s, n, nows, draws);
    ChaserOrbit(n + Moves(s, nows, draws));
  }

  lemma {:induction false} RunAdvances(s: DemoState, n: nat, nows: seq<int>, draws: seq<seq<nat>>)
    requires Valid(s) && |draws| == |nows|
    requires forall i :: 0 <= i < |draws| ==> ValidValues(draws[i])
    requires s.segment == ChaserAfter(CircleStart, n)
    ensures Run(s, nows, draws).segment == ChaserAfter(CircleStart, n + Moves(s, nows, draws))
    decreases |nows|
  {
    if |nows| > 0 {
      var r := Tick(s, nows[0], draws[0]);
      var m := if nows[0] - s.startCircle > CircleDelay then 1 else 0;
      assert r.segment == ChaserAfter(CircleStart, n + m);
      assert forall i :: 0 <= i < |draws[1..]| ==> draws[1..][i] == draws[i + 1];
      RunAdvances(r, n + m, nows[1..], draws[1..]);
    }
  }


  /** From the loop's entry, after any run of passes the chaser has taken
      one step per pass that moved it, starting from the top-left segment;
      ChaserOrbit gives the segment that many steps reach. */
  lemma StartFollowsOrbit(values: seq<nat>, now: int, nows: seq<int>, draws: seq<seq<nat>>)
    requires ValidValues(values) && |draws| == |nows|
    requires forall i :: 0 <= i < |draws| ==> ValidValues(draws[i])
    ensures var s := Start(values, now);
      Run(s, nows, draws).segment == ChaserAfter(CircleStart, Moves(s, nows, draws))
  {
    RunAdvances(Start(values, now), 0, nows, draws);
  }

  /** The program's start-up: Initialise(9, 8, 7) once, then the first frame. */
  function Startup(values: seq<nat>): (t: Trace)
    requires ValidValues(values)
  {
    var setup := Yl3.Initialise(Yl3.Unconfigured, 9, 8, 7, []);
    setup.trace + FrameTrace(setup.driver, values, CircleStart)
  }

  /** Initialise comes before every write: the start-up trace opens with the
      six configuration events, none of which raises a line. */
  lemma StartupInitialisesFirst(values: seq<nat>)
    requires ValidValues(values)
    ensures var t := Startup(values);
      && |t| == 6 + 8 * 67
      && t[..6] == [Configure(9), Low(9), Configure(8), Low(8), Configure(7), Low(7)]
      && t[6..] == FrameTrace(Yl3.Driver(9, 8, 7, 150), values, CircleStart)
  {
    var setup := Yl3.Initialise(Yl3.Unconfigured, 9, 8, 7, []);
    var frame := FrameTrace(setup.driver, values, CircleStart);
    assert Startup(values) == setup.trace + frame;
    Yl3.ExampleSetup();
    SplitAt(setup.trace, frame);
  }

  lemma SplitAt(a: Trace, b: Trace)
    ensures (a + b)[..|a|] == a && (a + b)[|a|..] == b
  {
  }

  /** After start-up the panel holds the first frame's last write: the
      chaser's first pattern on the right-most panel. */
  lemma StartupLatchesChaser(values: seq<nat>, c: ShiftRegister.Chip)
    requires ValidValues(values) && |c.register| == 16
    ensures var d := Yl3.Driver(9, 8, 7, 150);
      ShiftRegister.Run(Yl3.Wiring(d), c, Startup(values)).output
        == MsbBits(Yl3.Address(7)) + MsbBits(ChaserPattern(CircleStart))
  {
    var setup := Yl3.Initialise(Yl3.Unconfigured, 9, 8, 7, []);
    Yl3.ExampleSetup();
    var d := setup.driver;
    var w := FrameWrites(values, CircleStart);
    Yl3.InitialiseIdles(Yl3.Unconfigured, 9, 8, 7, [], c);
    var c1 := ShiftRegister.Run(Yl3.Wiring(d), c, setup.trace);
    ShiftRegister.RunAppend(Yl3.Wiring(d), c, setup.trace, FrameTrace(d, values, CircleStart));
    Yl3.WriteAllLatchesLast(d, c1, w);
  }
}

=== FILE: gpio.dfy ===
/** GPIO activity as data: each pin operation or delay the programs perform
    is one event of a trace, so a driver routine becomes a function that
    returns the trace it would produce. */
module Gpio {
  import opened Bytes
  import opened Optional

  /** TinyGo's `machine.Pin` is a pin number of type uint8. */
  type Pin = uint8

  datatype Event =
    | Configure(pin: Pin)   // the pin is configured as an output
    | High(pin: Pin)
    | Low(pin: Pin)
    | Sleep(micros: nat)    // a blocking delay, in microseconds

  type Trace = seq<Event>

  /** The event that drives pin to the given logic level. */
  function Drive(pin: Pin, level: bool): Event {
    if level then High(pin) else Low(pin)
  }

  predicate Drives(e: Event, pin: Pin) {
    (e.High? || e.Low?) && e.pin == pin
  }

  predicate Touches(e: Event, pin: Pin) {
    !e.Sleep? && e.pin == pin
  }

  /** No event of t configures or drives pin. */
  predicate Untouched(t: Trace, pin: Pin) {
    forall i :: 0 <= i < |t| ==> !Touches(t[i], pin)
  }

  /** Every delay in t lasts exactly micros microseconds. */
  predicate SleepsAre(t: Trace, micros: nat) {
    forall i :: 0 <= i < |t| && t[i].Sleep? ==> t[i].micros == micros
  }

  /** The levels driven onto pin, in the order they are driven. */
  function Levels(t: Trace, pin: Pin): seq<bool>
  {
    if t == [] then []
    else (if Drives(t[0], pin) then [t[0].High?] else []) + Levels(t[1..], pin)
  }

  /** The number of times pin is driven high. */
  function Highs(t: Trace, pin: Pin): nat
  {
    if t == [] then 0
    else (if t[0] == High(pin) then 1 else 0) + Highs(t[1..], pin)
  }

  /** The level pin is left at by t, if t drives it at all. */
  function FinalLevel(t: Trace, pin: Pin): Option<bool>
  {
    var levels := Levels(t, pin);
    if levels == [] then None else Some(levels[|levels| - 1])
  }

  /** The time t spends waiting, in microseconds. */
  function Elapsed(t: Trace): nat
  {
    if t == [] then 0 else (if t[0].Sleep? then t[0].micros else 0) + Elapsed(t[1..])
  }

  /** The level pin is at once t has run, when it was at level now before. */
  function LevelAfter(t: Trace, pin: Pin, now: bool): bool
  {
    if t == [] then now else LevelAfter(t[1..], pin, if Drives(t[0], pin) then t[0].High? else now)
  }

  /** The time t spends waiting while pin is at level, when it was at level
      now before t: how long t holds pin high, or low. */
  function Held(t: Trace, pin: Pin, level: bool, now: bool): nat
  {
    if t == [] then 0
    else (if t[0].Sleep? && now == level then t[0].micros else 0)
         + Held(t[1..], pin, level, if Drives(t[0], pin) then t[0].High? else now)
  }

  lemma {:induction false} ElapsedAppend(a: Trace, b: Trace)
    ensures Elapsed(a + b) == Elapsed(a) + Elapsed(b)
    decreases |a|
  {
    if a != [] {
      assert (a + b)[1..] == a[1..] + b;
      ElapsedAppend(a[1..], b);
    } else {
      assert a + b == b;
    }
  }

  /** Time held in a + b: a's share, then b's from the level a leaves. */
  lemma {:induction false} HeldAppend(a: Trace, b: Trace, pin: Pin, level: bool, now: bool)
    ensures Held(a + b, pin, level, now) == Held(a, pin, level, now) + Held(b, pin, level, LevelAfter(a, pin, now))
    ensures LevelAfter(a + b, pin, now) == LevelAfter(b, pin, LevelAfter(a, pin, now))
    decreases |a|
  {
    if a != [] {
      assert (a + b)[1..] == a[1..] + b;
      assert (a + b)[0] == a[0];
      HeldAppend(a[1..], b, pin, level, if Drives(a[0], pin) then a[0].High? else now);
    } else {
      assert a + b == b;
    }
  }

  /** Every wait is spent either high or low. */
  lemma {:induction false} HeldSplit(t: Trace, pin: Pin, now: bool)
    ensures Held(t, pin, true, now) + Held(t, pin, false, now) == Elapsed(t)
    decreases |t|
  {
    if t != [] {
      HeldSplit(t[1..], pin, if Drives(t[0], pin) then t[0].High? else now);
    }
  }

  /** A pin that t leaves alone keeps its level throughout. */
  lemma {:induction false} HeldUntouched(t: Trace, pin: Pin, level: bool, now: bool)
    requires Untouched(t, pin)
    ensures Held(t, pin, level, now) == (if now == level then Elapsed(t) else 0)
    ensures LevelAfter(t, pin, now) == now
    decreases |t|
  {
    if t != [] {
      assert !Touches(t[0], pin);
      assert Untouched(t[1..], pin) by {
        forall i | 0 <= i < |t[1..]| ensures !Touches(t[1..][i], pin) {
          assert t[1..][i] == t[i + 1];
        }
      }
      HeldUntouched(t[1..], pin, level, now);
    }
  }

  lemma {:induction false} LevelsAppend(a: Trace, b: Trace, pin: Pin)
    ensures Levels(a + b, pin) == Levels(a, pin) + Levels(b, pin)
    decreases |a|
  {
    if a != [] {
      assert (a + b)[1..] == a[1..] + b;
      LevelsAppend(a[1..], b, pin);
    } else {
      assert a + b == b;
    }
  }

  lemma {:induction false} HighsAppend(a: Trace, b: Trace, pin: Pin)
    ensures Highs(a + b, pin) == Highs(a, pin) + Highs(b, pin)
    decreases |a|
  {
    if a != [] {
      assert (a + b)[1..] == a[1..] + b;
      HighsAppend(a[1..], b, pin);
    } else {
      assert a + b == b;
    }
  }

  lemma UntouchedAppend(a: Trace, b: Trace, pin: Pin)
    requires Untouched(a, pin) && Untouched(b, pin)
    ensures Untouched(a + b, pin)
  {
    forall i | 0 <= i < |a + b|
      ensures !Touches((a + b)[i], pin)
    {
      if i >= |a| {
        assert (a + b)[i] == b[i - |a|];
      }
    }
  }

  lemma Regroup(x: Trace, y: Trace, z: Trace)
    ensures x + (y + z) == x + y + z
  {
  }

  lemma SleepsAppend(a: Trace, b: Trace, micros: nat)
    requires SleepsAre(a, micros) && SleepsAre(b, micros)
    ensures SleepsAre(a + b, micros)
  {
    forall i | 0 <= i < |a + b| && (a + b)[i].Sleep?
      ensures (a + b)[i].micros == micros
    {
      if i >= |a| {
        assert (a + b)[i] == b[i - |a|];
      }
    }
  }

  /** The final level after a + b is b's, unless b leaves the pin alone. */
  lemma FinalLevelAppend(a: Trace, b: Trace, pin: Pin)
    ensures FinalLevel(a + b, pin) == if Levels(b, pin) == [] then FinalLevel(a, pin) else FinalLevel(b, pin)
  {
    LevelsAppend(a, b, pin);
  }

  lemma {:induction false} UntouchedLevels(t: Trace, pin: Pin)
    requires Untouched(t, pin)
    ensures Levels(t, pin) == [] && Highs(t, pin) == 0
    decreases |t|
  {
    if t != [] {
      assert !Touches(t[0], pin);
      UntouchedLevels(t[1..], pin);
    }
  }
}

=== FILE: optional.dfy ===
/** An optional value, for lookups that may fall outside a table. */
module Optional {
  datatype Option<+T> = None | Some(value: T)
}

=== FILE: seven_segment.dfy ===
/** What a segment pattern draws. The panel's segment bits run, from the
    least significant: a (top), b (top right), c (bottom right), d (bottom),
    e (bottom left), f (top left), g (center), then the decimal point in bit
    7. The panels are common cathode behind inverting logic, so a segment is
    lit when its bit is 0. */
module SevenSegment {
  import opened Arith
  import opened Bytes

  /** Which segments are lit. */
  datatype Glyph = Glyph(a: bool, b: bool, c: bool, d: bool, e: bool, f: bool, g: bool, dp: bool)

  /** The pattern bits that light exactly the segments of s, most significant first. */
  function PatternBits(s: Glyph): (bits: seq<bool>)
    ensures |bits| == 8
  {
    [!s.dp, !s.g, !s.f, !s.e, !s.d, !s.c, !s.b, !s.a]
  }

  function Encode(s: Glyph): (p: uint8)
  {
    ValueBound(PatternBits(s));
    assert Pow2(8) == 0x100;
    Value(PatternBits(s))
  }

  function Decode(p: uint8): Glyph
  {
    var bits := MsbBits(p);
    Glyph(!bits[7], !bits[6], !bits[5], !bits[4], !bits[3], !bits[2], !bits[1], !bits[0])
  }

  lemma DecodeEncode(s: Glyph)
    ensures Decode(Encode(s)) == s
  {
    MsbBitsOfValue(PatternBits(s));
  }

  lemma EncodeDecode(p: uint8)
    ensures Encode(Decode(p)) == p
  {
    SpelledOut(MsbBits(p));
    ValueOfMsbBits(p);
  }

  lemma SpelledOut(bits: seq<bool>)
    requires |bits| == 8
    ensures bits == [bits[0], bits[1], bits[2], bits[3], bits[4], bits[5], bits[6], bits[7]]
  {
  }

  /** The conventional seven-segment shapes of the numerals 0 to 9. */
  function Numeral(n: nat): Glyph
    requires n < 10
  {
    match n
    case 0 => Glyph(true, true, true, true, true, true, false, false)
    case 1 => Glyph(false, true, true, false, false, false, false, false)
    case 2 => Glyph(true, true, false, true, true, false, true, false)
    case 3 => Glyph(true, true, true, true, false, false, true, false)
    case 4 => Glyph(false, true, true, false, false, true, true, false)
    case 5 => Glyph(true, false, true, true, false, true, true, false)
    case 6 => Glyph(true, false, true, true, true, true, true, false)
    case 7 => Glyph(true, true, true, false, false, false, false, false)
    case 8 => Glyph(true, true, true, true, true, true, true, false)
    case _ => Glyph(true, true, true, true, false, true, true, false)
  }

  const DecimalPoint := Glyph(false, false, false, false, false, false, false, true)
  const Blank := Glyph(false, false, false, false, false, false, false, false)

  /** The six outer segments, bits 0 to 5, as indices 0 to 5. */
  function Outer(s: Glyph): seq<bool> {
    [s.a, s.b, s.c, s.d, s.e, s.f]
  }
}

=== FILE: shift_register.dfy ===
/** The display's receiving side, as the driver relies on it: two cascaded
    8-bit serial-in/parallel-out registers that sample the data line on each
    rising clock edge and copy all 16 bits to the panel outputs on a rising
    latch edge. The driver never reads anything back, so this is the only
    observer against which the bit order of its traces can be judged. */
module ShiftRegister {
  import opened Bytes
  import opened Gpio

  /** Which pins feed the data (DIO), clock (SCK) and latch (RCK) inputs. */
  datatype Wiring = Wiring(data: Pin, clock: Pin, latch: Pin)

  predicate Distinct(w: Wiring) {
    w.data != w.clock && w.data != w.latch && w.clock != w.latch
  }

  /** Input line levels, the 16 shifted bits (oldest first) and the latched outputs. */
  datatype Chip = Chip(data: bool, clock: bool, latch: bool, register: seq<bool>, output: seq<bool>)

  /** Clock and latch lines are low, so their next rise is an edge. */
  predicate Idle(c: Chip) {
    !c.clock && !c.latch
  }

  /** One clock edge: the oldest bit falls out and the data level enters. */
  function Shift(register: seq<bool>, bit: bool): seq<bool> {
    (register + [bit])[1..]
  }

  function Step(w: Wiring, c: Chip, e: Event): Chip {
    if !(e.High? || e.Low?) then c
    else
      var level := e.High?;
      if e.pin == w.data then c.(data := level)
      else if e.pin == w.clock then
        if level && !c.clock then c.(clock := true, register := Shift(c.register, c.data))
        else c.(clock := level)
      else if e.pin == w.latch then
        if level && !c.latch then c.(latch := true, output := c.register)
        else c.(latch := level)
      else c
  }

  function Run(w: Wiring, c: Chip, t: Trace): Chip
    decreases |t|
  {
    if t == [] then c else Run(w, Step(w, c, t[0]), t[1..])
  }

  lemma {:induction false} RunAppend(w: Wiring, c: Chip, a: Trace, b: Trace)
    ensures Run(w, c, a + b) == Run(w, Run(w, c, a), b)
    decreases |a|
  {
    if a != [] {
      assert (a + b)[1..] == a[1..] + b;
      RunAppend(w, Step(w, c, a[0]), a[1..], b);
    } else {
      assert a + b == b;
    }
  }

  /** The panels the latched address byte (the first 8 bits shifted in)
      selects: panel p, counted from the left, is bit p of that byte. */
  function SelectedPanels(output: seq<bool>): set<nat>
    requires |output| == 16
  {
    set p: nat | p < 8 && Selects(output, p)
  }

  predicate Selects(output: seq<bool>, p: nat)
    requires |output| == 16 && p < 8
  {
    output[7 - p]
  }

  /** The segment pattern latched for the selected panels: the last 8 bits shifted in. */
  function ShownPattern(output: seq<bool>): nat
    requires |output| == 16
  {
    Value(output[8..])
  }
}

=== FILE: switches.dfy ===
/** The switches program's button logic: a push button on GP17 steps the
    white LED's blink rate, through a debounce check that only accepts a
    second edge at least 100 ms after the first one; a button on GP16 turns
    the LED's blinking on and off. The clock reading is a parameter, and the
    program's globals are one state value threaded through the handlers. */
module Switches {
  import opened Gpio
  import opened Optional

  const BlinkRateMin := 100
  const BlinkRateMax := 500
  const DebounceDelay := 100

  /** GP0, the "no window open" value of debouncePin. */
  const Gp0: Pin := 0
  const ToggleButton: Pin := 16
  const RateButton: Pin := 17
  const WhiteLed: Pin := 15

  /** The program's globals: ledActive, blinkRate (in milliseconds), and the
      debounce window (the pin that opened it and its start, in Unix
      milliseconds). */
  datatype State = State(ledActive: bool, blinkRate: int, debouncePin: Pin, debounceStart: int)

  const Initial := State(true, 250, Gp0, 0)

  /** The state after hasDebounced, and what it returned. */
  datatype Debounced = Debounced(state: State, accepted: bool)

  /** hasDebounced(p) at clock reading now. An edge from a pin other than
      the one holding the window opens a new window and is rejected; an
      edge from that pin is accepted once the window is at least 100 ms
      old, which closes the window. */
  function HasDebounced(s: State, p: Pin, now: int): (r: Debounced)
    ensures r.state.ledActive == s.ledActive && r.state.blinkRate == s.blinkRate
    ensures p != s.debouncePin ==>
      !r.accepted && r.state.debouncePin == p && r.state.debounceStart == now
    ensures p == s.debouncePin ==> (r.accepted <==> now - s.debounceStart >= DebounceDelay)
    ensures r.accepted ==> r.state.debouncePin == Gp0 && r.state.debounceStart == s.debounceStart
    ensures p == s.debouncePin && !r.accepted ==> r.state == s
  {
    var window := if s.debouncePin != p then s.(debouncePin := p, debounceStart := now) else s;
    var result := s.debouncePin == p && now - s.debounceStart >= DebounceDelay;
    Debounced(if result then window.(debouncePin := Gp0) else window, result)
  }

  /** The rate change on an accepted edge: down by 100 ms, wrapping from
      100 ms or less back up to 500 ms. */
  function NextRate(rate: int): (r: int)
    ensures r != rate
    ensures 0 < rate <= BlinkRateMax ==> 0 < r <= BlinkRateMax
    ensures r == BlinkRateMax || r == rate - BlinkRateMin
    ensures rate <= BlinkRateMin ==> r == BlinkRateMax
    ensures rate > BlinkRateMin ==> r == rate - BlinkRateMin
    ensures 0 < rate <= BlinkRateMax ==> (r == BlinkRateMax <==> rate <= BlinkRateMin)
  {
    if rate <= BlinkRateMin then BlinkRateMax else rate - BlinkRateMin
  }

  /** onChangeRate(p) at clock reading now. */
  function OnChangeRate(s: State, p: Pin, now: int): (r: State)
    ensures r.blinkRate != s.blinkRate <==> HasDebounced(s, p, now).accepted
    ensures r.ledActive == s.ledActive
    ensures 0 < s.blinkRate <= BlinkRateMax ==> 0 < r.blinkRate <= BlinkRateMax
    ensures HasDebounced(s, p, now).accepted ==> r.blinkRate == NextRate(s.blinkRate)
    ensures r.(blinkRate := s.blinkRate) == HasDebounced(s, p, now).state
  {
    var d := HasDebounced(s, p, now);
    if d.accepted then d.state.(blinkRate := NextRate(s.blinkRate)) else d.state
  }

  /** The toggle button's interrupt handler. */
  function Toggle(s: State): (r: State)
    ensures r.ledActive != s.ledActive
    ensures r.(ledActive := s.ledActive) == s
  {
    s.(ledActive := !s.ledActive)
  }

  /** The two kinds of edge a pin interrupt is set for. */
  datatype Edge = Rising | Falling

  /** configureSwitches' interrupt wiring: a rising edge on GP16 toggles
      the LED, a falling edge on GP17 runs onChangeRate; any other edge
      calls no handler. */
  function Interrupt(s: State, p: Pin, edge: Edge, now: int): (r: State)
    ensures r.ledActive != s.ledActive ==> p == ToggleButton && edge == Rising
    ensures r.blinkRate != s.blinkRate ==> p == RateButton && edge == Falling
    ensures p == ToggleButton && edge == Rising ==> r.ledActive == !s.ledActive
    ensures p == ToggleButton && edge == Rising ==> r == Toggle(s)
    ensures p == RateButton && edge == Falling ==> r == OnChangeRate(s, p, now)
    ensures !(p == ToggleButton && edge == Rising) && !(p == RateButton && edge == Falling) ==> r == s
    ensures 0 < s.blinkRate <= BlinkRateMax ==> 0 < r.blinkRate <= BlinkRateMax
  {
    if p == ToggleButton && edge == Rising then Toggle(s)
    else if p == RateButton && edge == Falling then OnChangeRate(s, p, now)
    else s
  }

  /** Pressing GP16 once after start-up stops the white LED blinking: the
      next pass only drives it low and keeps it low for 250 ms. */
  lemma TogglePressDarkens(now: int, level: bool)
    ensures var t := BlinkPass(Interrupt(Initial, ToggleButton, Rising, now), WhiteLed);
      && FinalLevel(t, WhiteLed) == Some(false)
      && Held(t, WhiteLed, true, level) == 0
      && Held(t, WhiteLed, false, level) == 250_000
      && Elapsed(t) == 250_000
  {
  }

  /** The state after onChangeRate has handled edges of p at the given times. */
  function RateEdges(s: State, p: Pin, times: seq<int>): State
    decreases |times|
  {
    if times == [] then s else RateEdges(OnChangeRate(s, p, times[0]), p, times[1..])
  }

  /** How many of those edges the debounce check accepts. */
  function AcceptedEdges(s: State, p: Pin, times: seq<int>): nat
    decreases |times|
  {
    if times == [] then 0
    else (if HasDebounced(s, p, times[0]).accepted then 1 else 0)
         + AcceptedEdges(OnChangeRate(s, p, times[0]), p, times[1..])
  }

  /** Over any run of edges, the handler steps the rate once per accepted
      edge: the rate is NextRate applied that many times. */
  lemma {:induction false} RateEdgesStep(s: State, p: Pin, times: seq<int>)
    ensures RateEdges(s, p, times).blinkRate == RateAfter(s.blinkRate, AcceptedEdges(s, p, times))
    decreases |times|
  {
    if times != [] {
      var s1 := OnChangeRate(s, p, times[0]);
      RateEdgesStep(s1, p, times[1..]);
      RateAfterShift(s.blinkRate, AcceptedEdges(s1, p, times[1..]));
    }
  }

  /** Applying NextRate once and then n times is applying it n + 1 times. */
  lemma {:induction false} RateAfterShift(rate: int, n: nat)
    ensures RateAfter(NextRate(rate), n) == RateAfter(rate, n + 1)
    decreases n
  {
    if n > 0 {
      RateAfterShift(rate, n - 1);
    }
  }

  /** From the program's start, the rate is 500 − 100·((k − 3) mod 5) once
      k ≥ 3 edges have been accepted. */
  lemma RateEdgesFromStart(p: Pin, times: seq<int>)
    requires AcceptedEdges(Initial, p, times) >= 3
    ensures var k := AcceptedEdges(Initial, p, times);
      RateEdges(Initial, p, times).blinkRate == BlinkRateMax - BlinkRateMin * ((k - 3) % 5)
  {
    var k := AcceptedEdges(Initial, p, times);
    RateEdgesStep(Initial, p, times);
    RatesFromStart();
    assert RateAfter(250, 3) == 500;
    RateAfterSplit(250, 3, k - 3);
    RateCycle(k - 3);
  }

  lemma {:induction false} RateAfterSplit(rate: int, m: nat, n: nat)
    ensures RateAfter(rate, m + n) == RateAfter(RateAfter(rate, m), n)
    decreases n
  {
    if n > 0 {
      RateAfterSplit(rate, m, n - 1);
    }
  }

  /** Two toggles restore the state. */
  lemma ToggleTwice(s: State)
    ensures Toggle(Toggle(s)) == s
  {
  }

  /** The rate after n accepted edges. */
  function RateAfter(rate: int, n: nat): int {
    if n == 0 then rate else NextRate(RateAfter(rate, n - 1))
  }

  /** The rates the white LED goes through from the program's start. */
  lemma RatesFromStart()
    ensures seq(9, n requires 0 <= n < 9 => RateAfter(Initial.blinkRate, n))
      == [250, 150, 50, 500, 400, 300, 200, 100, 500]
  {
    assert RateAfter(250, 3) == 500;
    assert RateAfter(250, 8) == 500;
  }

  /** From 500 ms the rates repeat with period five: 500, 400, 300, 200, 100. */
  lemma {:induction false} RateCycle(n: nat)
    ensures RateAfter(BlinkRateMax, n) == BlinkRateMax - BlinkRateMin * (n % 5)
    decreases n
  {
    if n > 0 {
      RateCycle(n - 1);
    }
  }

  /** A window opened by p is held by later bounces of p shorter than the
      delay: they are rejected and do not restart the window. */
  lemma {:induction false} BouncesRejected(s: State, p: Pin, times: seq<int>)
    requires p == s.debouncePin
    requires forall i :: 0 <= i < |times| ==> times[i] - s.debounceStart < DebounceDelay
    ensures PressesAt(s, p, times).state == s
    ensures forall i :: 0 <= i < |times| ==> !Accepts(s, p, times, i)
    decreases |times|
  {
    if times != [] {
      BouncesRejected(s, p, times[1..]);
      forall i | 0 < i < |times|
        ensures !Accepts(s, p, times, i)
      {
        assert times[1..][i - 1] == times[i];
      }
    }
  }

  /** Edges of p at the given clock readings, in order. */
  function PressesAt(s: State, p: Pin, times: seq<int>): Debounced
    decreases |times|
  {
    if times == [] then Debounced(s, false)
    else
      var first := HasDebounced(s, p, times[0]);
      if |times| == 1 then first else PressesAt(first.state, p, times[1..])
  }

  /** Whether the i-th of those edges is accepted. */
  predicate Accepts(s: State, p: Pin, times: seq<int>, i: nat)
    requires i < |times|
    decreases i
  {
    if i == 0 then HasDebounced(s, p, times[0]).accepted
    else Accepts(HasDebounced(s, p, times[0]).state, p, times[1..], i - 1)
  }

  /** The debounce protocol for a button other than GP0, with the window
      closed: the first edge is always rejected and opens the window; a
      second edge is accepted exactly when it comes at least 100 ms after
      the first, and acceptance closes the window again, so that the next
      edge is once more a first edge. */
  lemma PressProtocol(s: State, p: Pin, t0: int, t1: int)
    requires p != Gp0 && s.debouncePin == Gp0
    ensures var first := HasDebounced(s, p, t0);
      && !first.accepted && first.state.debouncePin == p && first.state.debounceStart == t0
      && var second := HasDebounced(first.state, p, t1);
      && (second.accepted <==> t1 - t0 >= DebounceDelay)
      && (second.accepted ==> second.state.debouncePin == Gp0 && !HasDebounced(second.state, p, t1).accepted)
  {
  }

  /** An edge from another button in between steals the window: the first
      button's next edge is rejected however late it comes. */
  lemma OtherButtonRestarts(s: State, p: Pin, q: Pin, t0: int, t1: int, t2: int)
    requires p != q && s.debouncePin == p
    ensures var stolen := HasDebounced(HasDebounced(s, q, t1).state, p, t2);
      !stolen.accepted && stolen.state.debouncePin == p && stolen.state.debounceStart == t2
  {
  }

  /** From the program's start, the rate button steps the rate only on
      every second edge spaced at least 100 ms apart. */
  lemma FirstRateChange(now0: int, now1: int)
    requires now1 - now0 >= DebounceDelay
    ensures var s1 := OnChangeRate(Initial, RateButton, now0);
      s1.blinkRate == 250 && OnChangeRate(s1, RateButton, now1).blinkRate == 150
  {
  }

  lemma DrivePause(pin: Pin, level: bool, micros: nat)
    ensures Levels([Drive(pin, level), Sleep(micros)], pin) == [level]
    ensures SleepsAre([Drive(pin, level), Sleep(micros)], micros)
  {
    var t := [Drive(pin, level), Sleep(micros)];
    assert t[1..][1..] == [];
    assert Levels(t[1..], pin) == [];
  }

  /** Driving a level and pausing holds that level for the pause, whatever came before. */
  lemma DrivePauseTiming(pin: Pin, level: bool, micros: nat, now: bool)
    ensures var t := [Drive(pin, level), Sleep(micros)];
      && Elapsed(t) == micros
      && Held(t, pin, level, now) == micros && Held(t, pin, !level, now) == 0
      && LevelAfter(t, pin, now) == level
  {
    var t := [Drive(pin, level), Sleep(micros)];
    assert t[1..][1..] == [];
    assert Drives(t[0], pin) && t[0].High? == level && !t[0].Sleep?;
    assert Elapsed(t[1..]) == micros;
    assert Held(t[1..], pin, level, level) == micros && Held(t[1..], pin, !level, level) == 0;
    assert LevelAfter(t[1..], pin, level) == level;
  }

  /** A pass's pauses: one low, and one high when the LED is active. */
  lemma BlinkTiming(pin: Pin, active: bool, micros: nat, now: bool)
    ensures var half := [Low(pin), Sleep(micros)];
      var t := if active then half + [High(pin), Sleep(micros)] else half;
      && Elapsed(t) == (if active then 2 else 1) * micros
      && Held(t, pin, false, now) == micros
      && Held(t, pin, true, now) == (if active then micros else 0)
  {
    var half := [Low(pin), Sleep(micros)];
    var second := [High(pin), Sleep(micros)];
    DrivePauseTiming(pin, false, micros, now);
    DrivePauseTiming(pin, true, micros, false);
    assert half == [Drive(pin, false), Sleep(micros)];
    assert second == [Drive(pin, true), Sleep(micros)];
    ElapsedAppend(half, second);
    HeldAppend(half, second, pin, false, now);
    HeldAppend(half, second, pin, true, now);
  }

  /** One pass of lowHighSwitched's loop on pin. It reads the global
      blinkRate (not its own rate parameter): when the LED is active it is
      driven low then high with a blinkRate pause after each, and otherwise
      only driven low and paused once. */
  function BlinkPass(s: State, pin: Pin): (t: Trace)
    requires s.blinkRate >= 0
    ensures Levels(t, pin) == (if s.ledActive then [false, true] else [false])
    ensures SleepsAre(t, s.blinkRate * 1000)
    ensures FinalLevel(t, pin) == Some(s.ledActive)
    ensures Elapsed(t) == (if s.ledActive then 2 else 1) * s.blinkRate * 1000
    ensures forall now :: Held(t, pin, false, now) == s.blinkRate * 1000
    ensures forall now :: Held(t, pin, true, now) == (if s.ledActive then s.blinkRate * 1000 else 0)
  {
    var micros := s.blinkRate * 1000;
    var half := [Low(pin), Sleep(micros)];
    DrivePause(pin, false, micros);
    BlinkTiming(pin, s.ledActive, micros, false);
    BlinkTiming(pin, s.ledActive, micros, true);
    if s.ledActive then
      var second := [High(pin), Sleep(micros)];
      DrivePause(pin, true, micros);
      LevelsAppend(half, second, pin);
      SleepsAppend(half, second, micros);
      half + second
    else
      half
  }
}

=== FILE: thermometer.dfy ===
/** showDigits from the temperature program, starting from the integer
    `temp` (hundredths of a degree, already truncated from the sensor's
    float). Eight decimal digits are peeled off from the units upwards into
    panels 7 down to 0, then each panel is written with the library's table
    entry for its digit. Go's `/` truncates toward zero and its `uint8(...)`
    conversion wraps, so both are spelled out. */
module Thermometer {
  import opened Arith
  import opened Bytes
  import opened Optional
  import SevenSegment
  import Yl3

  /** temp after k rounds of Go's truncating `temp / 10`. */
  function Reduced(temp: int, k: nat): (r: int)
    ensures temp >= 0 ==> r >= 0
    ensures temp <= 0 ==> r <= 0
  {
    if k == 0 then temp else TruncDiv(Reduced(temp, k - 1), 10)
  }

  /** Decimal digit k of temp, counting from the units, as truncating
      arithmetic yields it: it carries the sign of temp. */
  function SignedDigit(temp: int, k: nat): (r: int)
    ensures -9 <= r <= 9
    ensures temp >= 0 ==> r >= 0
    ensures temp <= 0 ==> r <= 0
  {
    TruncRem(Reduced(temp, k), 10)
  }

  /** The digit array showDigits fills: panel p holds digit 7 - p, converted
      to uint8. */
  function DigitsOf(temp: int): (digits: seq<uint8>)
    ensures |digits| == 8
  {
    seq(8, p requires 0 <= p < 8 => PanelDigit(temp, p))
  }

  /** The byte panel p receives: digit 7 - p of temp. */
  function PanelDigit(temp: int, p: nat): uint8
    requires p < 8
  {
    Wrap8(SignedDigit(temp, 7 - p))
  }

  /** For a non-negative temp, k rounds of division by ten divide by 10^k. */
  lemma {:induction false} ReducedIsQuotient(temp: int, k: nat)
    requires temp >= 0
    ensures Reduced(temp, k) == temp / Pow10(k)
    decreases k
  {
    if k > 0 {
      ReducedIsQuotient(temp, k - 1);
      DivDiv(temp, Pow10(k - 1), 10);
      assert Pow10(k) == Pow10(k - 1) * 10;
    }
  }

  /** Truncating division is odd, so the rounds commute with negation. */
  lemma {:induction false} ReducedOfNegated(a: int, k: nat)
    requires a >= 0
    ensures Reduced(-a, k) == -Reduced(a, k)
    decreases k
  {
    if k > 0 {
      ReducedOfNegated(a, k - 1);
      TruncOfNegated(Reduced(a, k - 1), 10);
    }
  }

  /** The extraction loop: positions 7 down to 0 each take `temp - (temp/10)*10`
      and `temp` becomes `temp/10`. */
  method ExtractDigits(temp: int) returns (digits: seq<uint8>)
    ensures digits == DigitsOf(temp)
  {
    digits := [0, 0, 0, 0, 0, 0, 0, 0];
    var t := temp;
    var position := 7;
    while position >= 0
      invariant -1 <= position <= 7
      invariant |digits| == 8
      invariant t == Reduced(temp, 7 - position)
      invariant forall p :: position < p < 8 ==> digits[p] == DigitsOf(temp)[p]
    {
      var reduced := TruncDiv(t, 10);
      digits := digits[position := Wrap8(t - reduced * 10)];
      t := reduced;
      position := position - 1;
    }
  }

  /** The writes the display loop makes, and whether it panicked. */
  datatype Shown = Shown(writes: seq<Yl3.Write>, panicked: bool)

  /** The display loop from index i on: write panel i with the table entry
      for its digit, or panic if the digit is past the table's end. */
  function ShowFrom(digits: seq<uint8>, i: nat): Shown
    requires |digits| == 8 && i <= 8
    decreases 8 - i
  {
    if i == 8 then Shown([], false)
    else match Yl3.DigitAt(digits[i] as int)
      case None => Shown([], true)
      case Some(pattern) =>
        var rest := ShowFrom(digits, i + 1);
        Shown([Yl3.Write(i as uint8, pattern)] + rest.writes, rest.panicked)
  }

  /** What the loop from index i on achieves: one write per panel in
      ascending order, each with the table entry for its digit, stopping
      exactly at the first digit beyond the twelve-entry table, and panicking
      exactly when there is one. */
  lemma ShowFromWrites(digits: seq<uint8>, i: nat)
    requires |digits| == 8 && i <= 8
    ensures var s := ShowFrom(digits, i);
      && (s.panicked <==> exists p :: i <= p < 8 && digits[p] >= 12)
      && (!s.panicked ==> |s.writes| == 8 - i)
      && (s.panicked ==> i + |s.writes| < 8 && digits[i + |s.writes|] >= 12)
      && forall j :: 0 <= j < |s.writes| ==>
           s.writes[j].position as int == i + j && digits[i + j] < 12
           && s.writes[j].pattern == Yl3.Table[digits[i + j]]
  {
    ShowFromPanics(digits, i);
    ShowFromEntries(digits, i);
  }

  lemma {:induction false} ShowFromPanics(digits: seq<uint8>, i: nat)
    requires |digits| == 8 && i <= 8
    ensures var s := ShowFrom(digits, i);
      && (s.panicked <==> exists p :: i <= p < 8 && digits[p] >= 12)
      && (!s.panicked ==> |s.writes| == 8 - i)
      && (s.panicked ==> i + |s.writes| < 8 && digits[i + |s.writes|] >= 12)
    decreases 8 - i
  {
    if i < 8 && digits[i] < 12 {
      ShowFromPanics(digits, i + 1);
      var rest := ShowFrom(digits, i + 1);
      assert ShowFrom(digits, i) == Shown([Yl3.Write(i as uint8, Yl3.Table[digits[i]])] + rest.writes, rest.panicked);
      assert (exists p :: i <= p < 8 && digits[p] >= 12) <==> (exists p :: i + 1 <= p < 8 && digits[p] >= 12);
    } else if i < 8 {
      assert ShowFrom(digits, i) == Shown([], true);
      assert i <= i < 8 && digits[i] >= 12;
    }
  }

  lemma {:induction false} ShowFromEntries(digits: seq<uint8>, i: nat)
    requires |digits| == 8 && i <= 8
    ensures var s := ShowFrom(digits, i);
      && i + |s.writes| <= 8
      && forall j :: 0 <= j < |s.writes| ==>
        s.writes[j].position as int == i + j && digits[i + j] < 12
        && s.writes[j].pattern == Yl3.Table[digits[i + j]]
    decreases 8 - i
  {
    if i < 8 && digits[i] < 12 {
      ShowFromEntries(digits, i + 1);
      var s := ShowFrom(digits, i);
      var rest := ShowFrom(digits, i + 1);
      assert s.writes == [Yl3.Write(i as uint8, Yl3.Table[digits[i]])] + rest.writes;
      forall j | 0 <= j < |s.writes|
        ensures s.writes[j].position as int == i + j && digits[i + j] < 12
          && s.writes[j].pattern == Yl3.Table[digits[i + j]]
      {
        if j > 0 {
          assert s.writes[j] == rest.writes[j - 1];
        }
      }
    }
  }

  /** What showDigits does for a given temp. */
  function Show(temp: int): Shown {
    ShowFrom(DigitsOf(temp), 0)
  }

  /** One round of the display loop, unfolded. */
  lemma ShowStep(digits: seq<uint8>, i: nat)
    requires |digits| == 8 && i < 8
    ensures Yl3.DigitAt(digits[i] as int).None? ==> ShowFrom(digits, i) == Shown([], true)
    ensures Yl3.DigitAt(digits[i] as int).Some? ==>
      ShowFrom(digits, i) == Shown([Yl3.Write(i as uint8, Yl3.DigitAt(digits[i] as int).value)]
                                   + ShowFrom(digits, i + 1).writes, ShowFrom(digits, i + 1).panicked)
  {
  }

  /** The display loop: `for index, digit := range digits`, writing each
      panel with the table entry for its digit. */
  method WriteDigits(digits: seq<uint8>) returns (s: Shown)
    requires |digits| == 8
    ensures s == ShowFrom(digits, 0)
  {
    var writes: seq<Yl3.Write> := [];
    var index := 0;
    while index < 8
      invariant 0 <= index <= 8
      invariant ShowFrom(digits, 0)
        == Shown(writes + ShowFrom(digits, index).writes, ShowFrom(digits, index).panicked)
    {
      var entry := Yl3.DigitAt(digits[index] as int);
      ShowStep(digits, index);
      if entry.None? {
        assert writes + [] == writes;
        return Shown(writes, true);
      }
      var w := Yl3.Write(index as uint8, entry.value);
      assert writes + ([w] + ShowFrom(digits, index + 1).writes)
          == writes + [w] + ShowFrom(digits, index + 1).writes;
      writes := writes + [w];
      index := index + 1;
    }
    assert writes + [] == writes;
    s := Shown(writes, false);
  }

  /** showDigits as the program runs it: extract, then write in index order. */
  method ShowDigits(temp: int) returns (s: Shown)
    ensures s == Show(temp)
  {
    var digits := ExtractDigits(temp);
    s := WriteDigits(digits);
  }

  /** Table entry n draws numeral n. */
  lemma NumeralEntry(n: nat)
    requires n < 10
    ensures SevenSegment.Decode(Yl3.Table[n]) == SevenSegment.Numeral(n)
  {
    var table := Yl3.Digits();
  }

  /** Digits within 0..9 are all written, in order, as numerals. */
  lemma NumeralsShown(digits: seq<uint8>)
    requires |digits| == 8 && forall p :: 0 <= p < 8 ==> digits[p] <= 9
    ensures var s := ShowFrom(digits, 0);
      && !s.panicked && |s.writes| == 8
      && forall p :: 0 <= p < 8 ==>
           s.writes[p].position as int == p
           && SevenSegment.Decode(s.writes[p].pattern) == SevenSegment.Numeral(digits[p] as nat)
  {
    var s := ShowFrom(digits, 0);
    ShowFromWrites(digits, 0);
    forall p | 0 <= p < 8
      ensures SevenSegment.Decode(s.writes[p].pattern) == SevenSegment.Numeral(digits[p] as nat)
    {
      NumeralEntry(digits[p] as nat);
    }
  }

  /** A non-negative temp has no wrapped digit: each is its decimal digit. */
  lemma NonNegativeDigits(temp: int)
    requires temp >= 0
    ensures forall p :: 0 <= p < 8 ==> DigitsOf(temp)[p] as int == SignedDigit(temp, 7 - p) <= 9
  {
    var digits := DigitsOf(temp);
    forall p | 0 <= p < 8
      ensures digits[p] as int == SignedDigit(temp, 7 - p) <= 9
    {
      assert digits[p] == Wrap8(SignedDigit(temp, 7 - p));
    }
  }

  /** For a non-negative temp the loop never panics and writes all eight
      panels, in order, with the numerals of its digits. */
  lemma NonNegativeShowsNumerals(temp: int)
    requires temp >= 0
    ensures var s := Show(temp);
      && !s.panicked && |s.writes| == 8
      && forall p :: 0 <= p < 8 ==>
           s.writes[p].position as int == p
           && SevenSegment.Decode(s.writes[p].pattern) == SevenSegment.Numeral(SignedDigit(temp, 7 - p))
  {
    NonNegativeDigits(temp);
    NumeralsShown(DigitsOf(temp));
  }

  /** The number a digit sequence spells, most significant digit first. */
  function DecimalValue(digits: seq<int>): int {
    if digits == [] then 0 else DecimalValue(digits[..|digits| - 1]) * 10 + digits[|digits| - 1]
  }

  /** The digits of panels 0..n-1 spell the top n of the eight lowest
      decimal digits of a non-negative temp. */
  lemma {:induction false} PrefixValue(temp: int, n: nat)
    requires temp >= 0 && n <= 8
    ensures DecimalValue(DigitsOf(temp)[..n]) == Reduced(temp, 8 - n) % Pow10(n)
    decreases n
  {
    var digits := DigitsOf(temp);
    if n > 0 {
      var m := n - 1;
      PrefixValue(temp, m);
      assert digits[..n][..m] == digits[..m];
      var q := Reduced(temp, 7 - m);
      assert digits[m] as int == q % 10 by {
        TruncOfNonNegative(q, 10);
      }
      assert Reduced(temp, 8 - m) == q / 10 by {
        TruncOfNonNegative(q, 10);
      }
      DivDiv(q, 10, Pow10(m));
      assert Pow10(n) == 10 * Pow10(m);
    }
  }

  /** The round trip: the eight panels spell temp modulo 10^8, so a
      non-negative temp below 10^8 is shown exactly. */
  lemma DigitsSpellTemp(temp: int)
    requires temp >= 0
    ensures DecimalValue(DigitsOf(temp)) == temp % Pow10(8)
    ensures temp < Pow10(8) ==> DecimalValue(DigitsOf(temp)) == temp
  {
    PrefixValue(temp, 8);
    assert DigitsOf(temp)[..8] == DigitsOf(temp);
    assert Reduced(temp, 0) == temp;
    if temp < Pow10(8) {
      DivModUnique(temp, Pow10(8), 0, temp);
    }
  }

  /** Below 10^7, seven divisions by ten leave nothing. */
  lemma ReducedBelow(temp: int)
    requires 0 <= temp < Pow10(7)
    ensures Reduced(temp, 7) == 0
  {
    ReducedIsQuotient(temp, 7);
    DivModUnique(temp, Pow10(7), 0, temp);
  }

  /** Leading zeros are not blanked: below 10^7 panel 0 shows "0". */
  lemma LeadingZeroShown(temp: int)
    requires 0 <= temp < Pow10(7)
    ensures Show(temp).writes[0] == Yl3.Write(0, Yl3.Digit0)
  {
    ReducedBelow(temp);
    assert DigitsOf(temp)[0] == 0 by {
      assert DigitsOf(temp)[0] == Wrap8(SignedDigit(temp, 7 - 0));
    }
    FirstPanelZero(DigitsOf(temp));
  }

  lemma FirstPanelZero(digits: seq<uint8>)
    requires |digits| == 8 && digits[0] == 0
    ensures |ShowFrom(digits, 0).writes| > 0 && ShowFrom(digits, 0).writes[0] == Yl3.Write(0, Yl3.Digit0)
  {
    ShowStep(digits, 0);
    assert Yl3.DigitAt(0) == Some(Yl3.Digit0);
  }

  /** A digit sequence of non-negative digits spells zero exactly when
      every digit is zero. */
  lemma {:induction false} ZeroValue(digits: seq<int>)
    requires forall i :: 0 <= i < |digits| ==> 0 <= digits[i] <= 9
    ensures DecimalValue(digits) >= 0
    ensures DecimalValue(digits) == 0 <==> forall i :: 0 <= i < |digits| ==> digits[i] == 0
    decreases |digits|
  {
    if digits != [] {
      var front := digits[..|digits| - 1];
      ZeroValue(front);
      if DecimalValue(digits) == 0 {
        forall i | 0 <= i < |digits|
          ensures digits[i] == 0
        {
          if i < |front| {
            assert front[i] == digits[i];
          }
        }
      } else {
        assert digits[|digits| - 1] != 0 || DecimalValue(front) != 0;
        if DecimalValue(front) != 0 {
          var i :| 0 <= i < |front| && front[i] != 0;
          assert digits[i] != 0;
        }
      }
    }
  }

  /** Go's uint8 conversion of a negated decimal digit. */
  lemma WrapNegatedDigit(d: int)
    requires 0 <= d <= 9
    ensures Wrap8(-d) as int == if d == 0 then 0 else 256 - d
  {
    if d > 0 {
      DivModUnique(-d, 256, -1, 256 - d);
    }
  }

  /** The digits of -a are those of a, negated. */
  lemma NegatedDigit(a: int, k: nat)
    requires a >= 0
    ensures SignedDigit(-a, k) == -SignedDigit(a, k)
  {
    var x := Reduced(a, k);
    ReducedOfNegated(a, k);
    TruncOfNegated(x, 10);
    TruncOfNonNegative(x, 10);
  }

  /** A negative temp has the negated digits of -temp, which the uint8
      conversion wraps into 247..255 (a zero digit stays zero). */
  lemma NegativeDigits(temp: int)
    requires temp < 0
    ensures forall p :: 0 <= p < 8 ==>
      DigitsOf(temp)[p] as int == (if DigitsOf(-temp)[p] == 0 then 0 else 256 - DigitsOf(-temp)[p] as int)
  {
    forall p | 0 <= p < 8
      ensures DigitsOf(temp)[p] as int == (if DigitsOf(-temp)[p] == 0 then 0 else 256 - DigitsOf(-temp)[p] as int)
    {
      var k := 7 - p;
      var d := SignedDigit(-temp, k);
      NegatedDigit(-temp, k);
      WrapNegatedDigit(d);
      assert DigitsOf(temp)[p] == Wrap8(SignedDigit(temp, k));
      assert DigitsOf(-temp)[p] == Wrap8(d);
    }
  }

  /** Every digit of a negative temp is 0 or wraps into 247..255. */
  lemma NegativeDigitsWrap(temp: int)
    requires temp < 0
    ensures forall p :: 0 <= p < 8 ==> DigitsOf(temp)[p] == 0 || DigitsOf(temp)[p] >= 247
  {
    NegativeDigits(temp);
    NonNegativeDigits(-temp);
  }

  /** The display loop panics exactly when some digit is out of the table;
      when those are the nonzero digits of a decimal number, exactly when
      that number is nonzero. */
  lemma PanicsIffNonzero(wrapped: seq<uint8>, positive: seq<uint8>)
    requires |wrapped| == 8 && |positive| == 8
    requires forall p :: 0 <= p < 8 ==> positive[p] <= 9
    requires forall p :: 0 <= p < 8 ==> (wrapped[p] >= 12 <==> positive[p] != 0)
    ensures ShowFrom(wrapped, 0).panicked <==> DecimalValue(positive) != 0
  {
    ShowFromWrites(wrapped, 0);
    ZeroValue(positive);
  }

  /** For a negative temp, the panels spell -temp modulo 10^8 in the
      un-negated digits, which is Go's remainder with its sign flipped. */
  lemma NegatedValue(temp: int)
    requires temp < 0
    ensures DecimalValue(DigitsOf(-temp)) == -TruncRem(temp, Pow10(8))
  {
    DigitsSpellTemp(-temp);
    TruncOfNegated(-temp, Pow10(8));
  }

  /** A negative temp panics at the table lookup unless its low eight
      digits are all zero. */
  lemma NegativePanics(temp: int)
    requires temp < 0
    ensures Show(temp).panicked <==> TruncRem(temp, Pow10(8)) != 0
  {
    NegativeDigits(temp);
    NonNegativeDigits(-temp);
    PanicsIffNonzero(DigitsOf(temp), DigitsOf(-temp));
    NegatedValue(temp);
  }
}

=== FILE: yl3.dfy ===
/** The YL-3 8-digit, 7-segment display library (package tinygo_yl3_8x7):
    the digit table and the bit-banged protocol that writes one digit.
    The package-level pin and delay variables become an explicit Driver
    value, and every GPIO operation becomes an event of the returned trace. */
module Yl3 {
  import opened Arith
  import opened Bytes
  import opened Gpio
  import opened Optional
  import SevenSegment
  import ShiftRegister

  // Segment patterns; a 0 bit lights a segment.
  const Digit0: uint8 := 0xC0        // 0b11000000
  const Digit1: uint8 := 0xF9        // 0b11111001
  const Digit2: uint8 := 0xA4        // 0b10100100
  const Digit3: uint8 := 0xB0        // 0b10110000
  const Digit4: uint8 := 0x99        // 0b10011001
  const Digit5: uint8 := 0x92        // 0b10010010
  const Digit6: uint8 := 0x82        // 0b10000010
  const Digit7: uint8 := 0xF8        // 0b11111000
  const Digit8: uint8 := 0x80        // 0b10000000
  const Digit9: uint8 := 0x90        // 0b10010000
  const DigitDecimal: uint8 := 0x7F  // 0b01111111
  const DigitOff: uint8 := 0xFF      // 0b11111111

  /** The table's entries, in order. */
  const Table: seq<uint8> :=
    [Digit0, Digit1, Digit2, Digit3, Digit4, Digit5, Digit6, Digit7, Digit8, Digit9, DigitDecimal, DigitOff]

  /** DIGITS(): the twelve canonical patterns, the numerals 0 to 9, the
      decimal point, and blank. Each one draws what its index names. */
  function Digits(): (table: seq<uint8>)
    ensures |table| == 12
    ensures forall n :: 0 <= n < 10 ==> SevenSegment.Decode(table[n]) == SevenSegment.Numeral(n)
    ensures SevenSegment.Decode(table[10]) == SevenSegment.DecimalPoint
    ensures SevenSegment.Decode(table[11]) == SevenSegment.Blank
  {
    TableDraws(Table);
    Table
  }

  /** A pattern built from a glyph's segment weights decodes to that glyph. */
  lemma Draws(p: uint8, s: SevenSegment.Glyph)
    requires p == Weight(!s.dp, 128) + Weight(!s.g, 64) + Weight(!s.f, 32) + Weight(!s.e, 16)
                + Weight(!s.d, 8) + Weight(!s.c, 4) + Weight(!s.b, 2) + Weight(!s.a, 1)
    ensures SevenSegment.Decode(p) == s
  {
    ValueOfEight(SevenSegment.PatternBits(s));
    SevenSegment.DecodeEncode(s);
  }

  lemma TableEntries()
    ensures Table[0] == Digit0 && Table[1] == Digit1 && Table[2] == Digit2 && Table[3] == Digit3
    ensures Table[4] == Digit4 && Table[5] == Digit5 && Table[6] == Digit6 && Table[7] == Digit7
    ensures Table[8] == Digit8 && Table[9] == Digit9 && Table[10] == DigitDecimal && Table[11] == DigitOff
  {
  }

  /** Table entry n, for n < 10, draws the numeral n. */
  lemma NumeralDrawn(n: nat)
    requires n < 10
    ensures SevenSegment.Decode(Table[n]) == SevenSegment.Numeral(n)
  {
    TableEntries();
    match n
    case 0 => Draws(Digit0, SevenSegment.Numeral(0)); assert Table[n] == Digit0;
    case 1 => Draws(Digit1, SevenSegment.Numeral(1)); assert Table[n] == Digit1;
    case 2 => Draws(Digit2, SevenSegment.Numeral(2)); assert Table[n] == Digit2;
    case 3 => Draws(Digit3, SevenSegment.Numeral(3)); assert Table[n] == Digit3;
    case 4 => Draws(Digit4, SevenSegment.Numeral(4)); assert Table[n] == Digit4;
    case 5 => Draws(Digit5, SevenSegment.Numeral(5)); assert Table[n] == Digit5;
    case 6 => Draws(Digit6, SevenSegment.Numeral(6)); assert Table[n] == Digit6;
    case 7 => Draws(Digit7, SevenSegment.Numeral(7)); assert Table[n] == Digit7;
    case 8 => Draws(Digit8, SevenSegment.Numeral(8)); assert Table[n] == Digit8;
    case _ => Draws(Digit9, SevenSegment.Numeral(9)); assert Table[n] == Digit9;
  }

  lemma TableDraws(table: seq<uint8>)
    requires table == [Digit0, Digit1, Digit2, Digit3, Digit4, Digit5, Digit6, Digit7, Digit8, Digit9, DigitDecimal, DigitOff]
    ensures forall n :: 0 <= n < 10 ==> SevenSegment.Decode(table[n]) == SevenSegment.Numeral(n)
    ensures SevenSegment.Decode(table[10]) == SevenSegment.DecimalPoint
    ensures SevenSegment.Decode(table[11]) == SevenSegment.Blank
  {
    forall n | 0 <= n < 10
      ensures SevenSegment.Decode(table[n]) == SevenSegment.Numeral(n)
    {
      NumeralDrawn(n);
    }
    Draws(table[10], SevenSegment.DecimalPoint);
    Draws(table[11], SevenSegment.Blank);
  }

  /** Table lookup as Go performs it: an index outside the table panics. */
  function DigitAt(i: int): (r: Option<uint8>)
    ensures r.Some? <==> 0 <= i < 12
    ensures r.Some? ==> r.value == Table[i]
  {
    if 0 <= i < |Table| then Some(Table[i]) else None
  }

  /** The package state: the three pins (Go's zero pin before Initialise)
      and the pulse delay in microseconds. */
  datatype Driver = Driver(data: Pin, clock: Pin, latch: Pin, pulseDelay: uint16)

  const DefaultPulseDelay: uint16 := 150

  /** The package variables as they stand before any call to Initialise. */
  const Unconfigured := Driver(0, 0, 0, DefaultPulseDelay)

  function Wiring(d: Driver): ShiftRegister.Wiring {
    ShiftRegister.Wiring(d.data, d.clock, d.latch)
  }

  predicate DistinctPins(d: Driver) {
    ShiftRegister.Distinct(Wiring(d))
  }

  /** Drive pin high, wait the pulse delay, drive it low: the pulse takes
      pulseDelay, all of it with pin high, whatever level pin had before. */
  function PulsePin(d: Driver, pin: Pin): (t: Trace)
    ensures Levels(t, pin) == [true, false] && Highs(t, pin) == 1
    ensures FinalLevel(t, pin) == Some(false)
    ensures forall q :: q != pin ==> Untouched(t, q)
    ensures SleepsAre(t, d.pulseDelay)
    ensures Elapsed(t) == d.pulseDelay
    ensures forall now :: Held(t, pin, true, now) == d.pulseDelay && LevelAfter(t, pin, now) == false
  {
    PulseLevels(pin, d.pulseDelay);
    PulseTiming(pin, d.pulseDelay, false);
    PulseTiming(pin, d.pulseDelay, true);
    [High(pin), Sleep(d.pulseDelay), Low(pin)]
  }

  lemma PulseTiming(pin: Pin, micros: nat, now: bool)
    ensures var t := [High(pin), Sleep(micros), Low(pin)];
      && Elapsed(t) == micros
      && Held(t, pin, true, now) == micros
      && LevelAfter(t, pin, now) == false
  {
    var t := [High(pin), Sleep(micros), Low(pin)];
    assert t[1..][1..][1..] == [];
    assert Elapsed(t[1..][1..]) == 0;
    assert Held(t[1..][1..], pin, true, true) == 0;
    assert LevelAfter(t[1..][1..], pin, true) == false;
  }

  lemma PulseLevels(pin: Pin, micros: nat)
    ensures Levels([High(pin), Sleep(micros), Low(pin)], pin) == [true, false]
    ensures Highs([High(pin), Sleep(micros), Low(pin)], pin) == 1
  {
    var t := [High(pin), Sleep(micros), Low(pin)];
    assert t[1..][1..][1..] == [];
    assert Levels(t[1..][1..], pin) == [false];
    assert Highs(t[1..][1..], pin) == 0;
  }

  /** One bit on the bus: the data line set to the bit, then a clock pulse. */
  function BitStep(d: Driver, level: bool): Trace {
    [Drive(d.data, level)] + PulsePin(d, d.clock)
  }

  /** A bit string clocked onto the bus, first bit first. */
  function Serial(d: Driver, bits: seq<bool>): (t: Trace)
    ensures |t| == 4 * |bits|
  {
    if bits == [] then [] else BitStep(d, bits[0]) + Serial(d, bits[1..])
  }

  /** The loop of shiftOut with `remaining` passes to go: drive data to the
      state of bit 7 (`value & 0x80 == 0x80`), pulse the clock, shift value
      left by one. */
  function ShiftLoop(d: Driver, value: uint8, remaining: nat): Trace
    decreases remaining
  {
    if remaining == 0 then []
    else [Drive(d.data, Bit(value, 7))] + PulsePin(d, d.clock) + ShiftLoop(d, Shl8(value, 1), remaining - 1)
  }

  /** shiftOut: the eight bits of value go out most significant first, one clock pulse each. */
  function ShiftOut(d: Driver, value: uint8): (t: Trace)
    ensures t == Serial(d, MsbBits(value))
  {
    ShiftLoopSerial(d, value, 8);
    assert MsbBits(value)[..8] == MsbBits(value);
    ShiftLoop(d, value, 8)
  }

  lemma {:induction false} ShiftLoopSerial(d: Driver, value: uint8, n: nat)
    requires n <= 8
    ensures ShiftLoop(d, value, n) == Serial(d, MsbBits(value)[..n])
    decreases n
  {
    if n > 0 {
      var w := Shl8(value, 1);
      ShiftLoopSerial(d, w, n - 1);
      ShlMsbBits(value);
      assert MsbBits(w)[..n - 1] == MsbBits(value)[..n][1..];
      assert MsbBits(value)[..n][0] == Bit(value, 7);
    }
  }

  lemma {:induction false} SerialAppend(d: Driver, a: seq<bool>, b: seq<bool>)
    ensures Serial(d, a + b) == Serial(d, a) + Serial(d, b)
    decreases |a|
  {
    if a != [] {
      assert (a + b)[1..] == a[1..] + b;
      SerialAppend(d, a[1..], b);
    } else {
      assert a + b == b;
    }
  }

  /** Sending one more bit appends one bit step. */
  lemma SerialExtend(d: Driver, bits: seq<bool>, n: nat)
    requires n < |bits|
    ensures Serial(d, bits[..n + 1]) == Serial(d, bits[..n]) + BitStep(d, bits[n])
  {
    assert bits[..n + 1] == bits[..n] + [bits[n]];
    SerialAppend(d, bits[..n], [bits[n]]);
    assert [bits[n]][1..] == [];
  }

  /** One bit step waits one pulse delay. */
  lemma BitStepElapsed(d: Driver, level: bool)
    ensures Elapsed(BitStep(d, level)) == d.pulseDelay
  {
    var head := [Drive(d.data, level)];
    ElapsedAppend(head, PulsePin(d, d.clock));
    assert Elapsed(head) == 0;
  }

  /** A serial transfer waits one pulse delay per bit. */
  lemma {:induction false} SerialElapsed(d: Driver, bits: seq<bool>)
    ensures Elapsed(Serial(d, bits)) == |bits| * d.pulseDelay
    decreases |bits|
  {
    if bits != [] {
      BitStepElapsed(d, bits[0]);
      SerialElapsed(d, bits[1..]);
      ElapsedAppend(BitStep(d, bits[0]), Serial(d, bits[1..]));
    }
  }

  /** In one bit step the clock, low before, is high for the pulse delay and ends low. */
  lemma BitStepClockHeld(d: Driver, level: bool)
    requires DistinctPins(d)
    ensures Held(BitStep(d, level), d.clock, true, false) == d.pulseDelay
    ensures LevelAfter(BitStep(d, level), d.clock, false) == false
  {
    var head := [Drive(d.data, level)];
    var pulse := PulsePin(d, d.clock);
    assert Untouched(head, d.clock);
    HeldUntouched(head, d.clock, true, false);
    HeldAppend(head, pulse, d.clock, true, false);
  }

  /** During a serial transfer the clock, low before, is high for one pulse
      delay per bit and ends low. */
  lemma {:induction false} SerialClockHeld(d: Driver, bits: seq<bool>)
    requires DistinctPins(d)
    ensures Held(Serial(d, bits), d.clock, true, false) == |bits| * d.pulseDelay
    ensures LevelAfter(Serial(d, bits), d.clock, false) == false
    decreases |bits|
  {
    if bits != [] {
      BitStepClockHeld(d, bits[0]);
      SerialClockHeld(d, bits[1..]);
      HeldAppend(BitStep(d, bits[0]), Serial(d, bits[1..]), d.clock, true, false);
    }
  }

  /** On the bus, a serial transfer sets the data line to each bit in turn,
      pulses the clock once per bit, and leaves the latch alone. */
  lemma SerialLines(d: Driver, bits: seq<bool>)
    requires DistinctPins(d)
    ensures Levels(Serial(d, bits), d.data) == bits
    ensures Highs(Serial(d, bits), d.clock) == |bits|
    ensures Untouched(Serial(d, bits), d.latch)
    ensures SleepsAre(Serial(d, bits), d.pulseDelay)
    ensures bits != [] ==> FinalLevel(Serial(d, bits), d.clock) == Some(false)
  {
    SerialData(d, bits);
    SerialClock(d, bits);
    SerialLeavesLatch(d, bits);
    SerialSleeps(d, bits);
  }

  /** What one bit step does on each line. */
  lemma BitStepLines(d: Driver, level: bool)
    requires DistinctPins(d)
    ensures Levels(BitStep(d, level), d.data) == [level]
    ensures Highs(BitStep(d, level), d.clock) == 1
    ensures FinalLevel(BitStep(d, level), d.clock) == Some(false)
    ensures Untouched(BitStep(d, level), d.latch)
  {
    var head := [Drive(d.data, level)];
    var pulse := PulsePin(d, d.clock);
    LevelsAppend(head, pulse, d.data);
    UntouchedLevels(pulse, d.data);
    HighsAppend(head, pulse, d.clock);
    FinalLevelAppend(head, pulse, d.clock);
    assert Highs(head, d.clock) == 0;
  }

  lemma {:induction false} SerialData(d: Driver, bits: seq<bool>)
    requires DistinctPins(d)
    ensures Levels(Serial(d, bits), d.data) == bits
    decreases |bits|
  {
    if bits != [] {
      BitStepLines(d, bits[0]);
      SerialData(d, bits[1..]);
      LevelsAppend(BitStep(d, bits[0]), Serial(d, bits[1..]), d.data);
    }
  }

  lemma {:induction false} SerialClock(d: Driver, bits: seq<bool>)
    requires DistinctPins(d)
    ensures Highs(Serial(d, bits), d.clock) == |bits|
    ensures bits != [] ==> FinalLevel(Serial(d, bits), d.clock) == Some(false)
    decreases |bits|
  {
    if bits != [] {
      var step := BitStep(d, bits[0]);
      var rest := Serial(d, bits[1..]);
      BitStepLines(d, bits[0]);
      SerialClock(d, bits[1..]);
      HighsAppend(step, rest, d.clock);
      FinalLevelAppend(step, rest, d.clock);
      if bits[1..] == [] {
        assert rest == [];
      }
    }
  }

  lemma {:induction false} SerialLeavesLatch(d: Driver, bits: seq<bool>)
    requires DistinctPins(d)
    ensures Untouched(Serial(d, bits), d.latch)
    decreases |bits|
  {
    if bits != [] {
      BitStepLines(d, bits[0]);
      SerialLeavesLatch(d, bits[1..]);
      UntouchedAppend(BitStep(d, bits[0]), Serial(d, bits[1..]), d.latch);
    }
  }

  /** One bit step, as the shift register sees it: the bit enters on the clock's rising edge. */
  lemma RunBitStep(d: Driver, c: ShiftRegister.Chip, level: bool)
    requires DistinctPins(d) && !c.clock
    ensures ShiftRegister.Run(Wiring(d), c, BitStep(d, level))
         == c.(data := level, register := ShiftRegister.Shift(c.register, level))
  {
    var w := Wiring(d);
    var t := BitStep(d, level);
    assert t == [Drive(d.data, level), High(d.clock), Sleep(d.pulseDelay), Low(d.clock)];
    var c1 := c.(data := level);
    var c2 := c1.(clock := true, register := ShiftRegister.Shift(c.register, level));
    assert ShiftRegister.Step(w, c, t[0]) == c1;
    assert ShiftRegister.Step(w, c1, t[1]) == c2;
    assert ShiftRegister.Step(w, c2, t[2]) == c2;
    var c3 := c2.(clock := false);
    assert ShiftRegister.Step(w, c2, t[3]) == c3;
    assert t[1..][1..][1..][1..] == [];
    assert ShiftRegister.Run(w, c2, t[1..][1..][1..]) == c3;
    assert ShiftRegister.Run(w, c2, t[1..][1..]) == c3;
    assert ShiftRegister.Run(w, c1, t[1..]) == c3;
    assert ShiftRegister.Run(w, c, t) == c3;
  }

  /** A serial transfer pushes its bits, in order, into the shift register
      and leaves clock and latch as they were. */
  lemma {:induction false} SerialShifts(d: Driver, c: ShiftRegister.Chip, bits: seq<bool>)
    requires DistinctPins(d) && !c.clock
    ensures ShiftRegister.Run(Wiring(d), c, Serial(d, bits))
         == c.(data := if bits == [] then c.data else bits[|bits| - 1],
               register := (c.register + bits)[|bits|..])
    decreases |bits|
  {
    var w := Wiring(d);
    if bits == [] {
      assert (c.register + bits)[|bits|..] == c.register;
    } else {
      var b := bits[0];
      ShiftRegister.RunAppend(w, c, BitStep(d, b), Serial(d, bits[1..]));
      RunBitStep(d, c, b);
      var c1 := c.(data := b, register := ShiftRegister.Shift(c.register, b));
      SerialShifts(d, c1, bits[1..]);
      assert (c1.register + bits[1..])[|bits[1..]|..] == (c.register + bits)[|bits|..] by {
        assert c1.register + bits[1..] == (c.register + bits)[1..];
      }
      if bits[1..] == [] {
        assert bits[|bits| - 1] == b;
      } else {
        assert bits[1..][|bits[1..]| - 1] == bits[|bits| - 1];
      }
    }
  }

  lemma {:induction false} SerialSleeps(d: Driver, bits: seq<bool>)
    ensures SleepsAre(Serial(d, bits), d.pulseDelay)
    decreases |bits|
  {
    if bits != [] {
      SerialSleeps(d, bits[1..]);
      var t := Serial(d, bits);
      assert t == BitStep(d, bits[0]) + Serial(d, bits[1..]);
      forall i | 0 <= i < |t| && t[i].Sleep?
        ensures t[i].micros == d.pulseDelay
      {
        if i >= 4 {
          assert t[i] == Serial(d, bits[1..])[i - 4];
        }
      }
    }
  }

  /** The address byte: Go's `1 << position` converted to the uint8 that shiftOut takes. */
  function Address(position: uint8): uint8 {
    Shl8(1, position)
  }

  /** WriteDigit: the address byte, then the pattern byte, then one latch pulse. */
  function WriteDigit(d: Driver, position: uint8, pattern: uint8): (t: Trace)
    ensures |t| == 67
    ensures t[..64] == Serial(d, MsbBits(Address(position)) + MsbBits(pattern))
    ensures t[64..] == PulsePin(d, d.latch)
    ensures SleepsAre(t, d.pulseDelay)
    ensures Elapsed(t) == 17 * d.pulseDelay
  {
    var serial := ShiftOut(d, Address(position)) + ShiftOut(d, pattern);
    var latch := PulsePin(d, d.latch);
    WriteDigitShape(d, MsbBits(Address(position)), MsbBits(pattern), serial, latch);
    WriteDigitElapsed(d, MsbBits(Address(position)), MsbBits(pattern), serial, latch);
    serial + latch
  }

  /** Sixteen bit steps and the latch pulse: seventeen pulse delays. */
  lemma WriteDigitElapsed(d: Driver, a: seq<bool>, b: seq<bool>, serial: Trace, latch: Trace)
    requires |a| == 8 && |b| == 8
    requires serial == Serial(d, a) + Serial(d, b) && latch == PulsePin(d, d.latch)
    ensures Elapsed(serial + latch) == 17 * d.pulseDelay
  {
    SerialAppend(d, a, b);
    SerialElapsed(d, a + b);
    assert |a + b| == 16;
    assert Elapsed(serial) == 16 * d.pulseDelay;
    assert Elapsed(latch) == d.pulseDelay;
    ElapsedSum(serial, latch, d.pulseDelay);
  }

  lemma ElapsedSum(x: Trace, y: Trace, p: nat)
    requires Elapsed(x) == 16 * p && Elapsed(y) == p
    ensures Elapsed(x + y) == 17 * p
  {
    ElapsedAppend(x, y);
  }

  lemma WriteDigitShape(d: Driver, a: seq<bool>, b: seq<bool>, serial: Trace, latch: Trace)
    requires |a| == 8 && |b| == 8
    requires serial == Serial(d, a) + Serial(d, b) && latch == PulsePin(d, d.latch)
    ensures |serial + latch| == 67
    ensures (serial + latch)[..64] == Serial(d, a + b) && (serial + latch)[64..] == latch
    ensures SleepsAre(serial + latch, d.pulseDelay)
  {
    SerialAppend(d, a, b);
    SerialSleeps(d, a + b);
    SleepsAppend(serial, latch, d.pulseDelay);
    assert (serial + latch)[..64] == serial;
  }

  /** Positions 0 to 7 address exactly one panel; from 8 on the uint8 shift
      leaves no bit set, so no panel is addressed. */
  lemma AddressOneHot(position: uint8)
    ensures position < 8 ==> forall k :: 0 <= k < 8 ==> (Bit(Address(position), k) <==> k == position)
    ensures position >= 8 ==> Address(position) == 0
  {
    ShlOne(position);
    if position < 8 {
      forall k | 0 <= k < 8
        ensures Bit(Address(position), k) <==> k == position
      {
        Pow2OneHot(position, k);
      }
    }
  }

  /** The 17 pulses of one write: 16 clock pulses carrying the address bits
      and then the pattern bits, MSB first, and a single latch pulse at the
      very end. */
  lemma WriteDigitLines(d: Driver, position: uint8, pattern: uint8)
    requires DistinctPins(d)
    ensures var t := WriteDigit(d, position, pattern);
      && Levels(t, d.data) == MsbBits(Address(position)) + MsbBits(pattern)
      && Highs(t, d.clock) == 16
      && Highs(t, d.latch) == 1
      && Untouched(t[..64], d.latch)
      && Levels(t[64..], d.latch) == [true, false]
      && FinalLevel(t, d.clock) == Some(false)
      && FinalLevel(t, d.latch) == Some(false)
  {
    var t := WriteDigit(d, position, pattern);
    assert t == t[..64] + t[64..];
    SerialThenLatch(d, t[..64], t[64..], MsbBits(Address(position)) + MsbBits(pattern));
  }

  /** The line activity of a non-empty serial transfer followed by a latch pulse. */
  lemma SerialThenLatch(d: Driver, a: Trace, b: Trace, bits: seq<bool>)
    requires DistinctPins(d) && bits != []
    requires a == Serial(d, bits) && b == PulsePin(d, d.latch)
    ensures Levels(a + b, d.data) == bits
    ensures Highs(a + b, d.clock) == |bits| && Highs(a + b, d.latch) == 1
    ensures Untouched(a, d.latch) && Levels(b, d.latch) == [true, false]
    ensures FinalLevel(a + b, d.clock) == Some(false) && FinalLevel(a + b, d.latch) == Some(false)
  {
    SerialLines(d, bits);
    LatchPulseQuiet(d);
    JoinLines(a, b, d.data, d.clock, d.latch);
  }

  /** The latch pulse leaves data and clock alone. */
  lemma LatchPulseQuiet(d: Driver)
    requires DistinctPins(d)
    ensures Levels(PulsePin(d, d.latch), d.data) == [] && Levels(PulsePin(d, d.latch), d.clock) == []
    ensures Highs(PulsePin(d, d.latch), d.clock) == 0
  {
    UntouchedLevels(PulsePin(d, d.latch), d.data);
    UntouchedLevels(PulsePin(d, d.latch), d.clock);
  }

  /** Joining a trace that leaves latch alone to one that leaves data and
      clock alone: each line's activity comes from one side only. */
  lemma JoinLines(a: Trace, b: Trace, data: Pin, clock: Pin, latch: Pin)
    requires Untouched(a, latch)
    requires Levels(b, data) == [] && Levels(b, clock) == [] && Highs(b, clock) == 0
    ensures Levels(a + b, data) == Levels(a, data)
    ensures Highs(a + b, clock) == Highs(a, clock) && Highs(a + b, latch) == Highs(b, latch)
    ensures FinalLevel(a + b, clock) == FinalLevel(a, clock)
    ensures FinalLevel(a + b, latch) == FinalLevel(b, latch)
  {
    UntouchedLevels(a, latch);
    LevelsAppend(a, b, data);
    HighsAppend(a, b, clock);
    HighsAppend(a, b, latch);
    FinalLevelAppend(a, b, clock);
    FinalLevelAppend(a, b, latch);
  }

  /** One latch pulse per write. */
  lemma WriteDigitLatchOnce(d: Driver, position: uint8, pattern: uint8)
    requires DistinctPins(d)
    ensures Highs(WriteDigit(d, position, pattern), d.latch) == 1
  {
    WriteDigitLines(d, position, pattern);
  }

  /** The latch pulse copies the shift register to the outputs. */
  lemma RunLatchPulse(d: Driver, c: ShiftRegister.Chip)
    requires DistinctPins(d) && !c.latch
    ensures ShiftRegister.Run(Wiring(d), c, PulsePin(d, d.latch)) == c.(output := c.register)
  {
    var w := Wiring(d);
    var t := PulsePin(d, d.latch);
    var c1 := c.(latch := true, output := c.register);
    assert ShiftRegister.Step(w, c, t[0]) == c1;
    assert ShiftRegister.Step(w, c1, t[1]) == c1;
    assert ShiftRegister.Step(w, c1, t[2]) == c1.(latch := false);
    assert t[1..][1..][1..] == [];
    assert ShiftRegister.Run(w, c1, t[1..][1..]) == c1.(latch := false);
    assert ShiftRegister.Run(w, c1, t[1..]) == c1.(latch := false);
  }

  /** The write's pulse widths: with the clock and latch low before it, the
      clock is high for sixteen pulse delays in all, the latch for one, and
      both end low. */
  lemma WriteDigitPulseWidths(d: Driver, position: uint8, pattern: uint8)
    requires DistinctPins(d)
    ensures var t := WriteDigit(d, position, pattern);
      && Held(t, d.clock, true, false) == 16 * d.pulseDelay
      && Held(t, d.latch, true, false) == d.pulseDelay
      && Held(t, d.latch, false, false) == 16 * d.pulseDelay
      && LevelAfter(t, d.clock, false) == false
      && LevelAfter(t, d.latch, false) == false
  {
    var t := WriteDigit(d, position, pattern);
    var bits := MsbBits(Address(position)) + MsbBits(pattern);
    var serial, pulse := Serial(d, bits), PulsePin(d, d.latch);
    assert t == t[..64] + t[64..];
    assert t == serial + pulse;
    SerialClockHeld(d, bits);
    HeldUntouched(pulse, d.clock, true, false);
    HeldAppend(serial, pulse, d.clock, true, false);
    SerialLeavesLatch(d, bits);
    HeldUntouched(serial, d.latch, true, false);
    HeldAppend(serial, pulse, d.latch, true, false);
    HeldSplit(t, d.latch, false);
  }

  /** End to end: whatever the registers held before, one write latches the
      address bits followed by the pattern bits, and leaves clock and latch low. */
  lemma WriteDigitLatches(d: Driver, c: ShiftRegister.Chip, position: uint8, pattern: uint8)
    requires DistinctPins(d) && ShiftRegister.Idle(c) && |c.register| == 16
    ensures var r := ShiftRegister.Run(Wiring(d), c, WriteDigit(d, position, pattern));
      && r.output == MsbBits(Address(position)) + MsbBits(pattern)
      && r.register == r.output
      && ShiftRegister.Idle(r)
  {
    var w := Wiring(d);
    var t := WriteDigit(d, position, pattern);
    var bits := MsbBits(Address(position)) + MsbBits(pattern);
    assert t == t[..64] + t[64..];
    ShiftRegister.RunAppend(w, c, t[..64], t[64..]);
    SerialShifts(d, c, bits);
    var c1 := ShiftRegister.Run(w, c, t[..64]);
    assert c1.register == bits;
    RunLatchPulse(d, c1);
  }

  /** The panels a latched address byte selects are its set bits. */
  lemma AddressSelects(position: uint8, pattern: uint8)
    ensures ShiftRegister.SelectedPanels(MsbBits(Address(position)) + MsbBits(pattern))
         == (if position < 8 then {position as nat} else {})
  {
    var a := Address(position);
    var out := MsbBits(a) + MsbBits(pattern);
    AddressOneHot(position);
    forall p: nat
      ensures p in ShiftRegister.SelectedPanels(out) <==> p < 8 && Bit(a, p)
    {
      if p < 8 {
        assert ShiftRegister.Selects(out, p) == MsbBits(a)[7 - p];
      }
    }
  }

  /** What the panel then shows: the addressed panel (none for positions
      from 8 on) lights the requested pattern. */
  lemma WriteDigitDisplays(d: Driver, c: ShiftRegister.Chip, position: uint8, pattern: uint8)
    requires DistinctPins(d) && ShiftRegister.Idle(c) && |c.register| == 16
    ensures var r := ShiftRegister.Run(Wiring(d), c, WriteDigit(d, position, pattern));
      && |r.output| == 16
      && ShiftRegister.SelectedPanels(r.output) == (if position < 8 then {position as nat} else {})
      && ShiftRegister.ShownPattern(r.output) == pattern
  {
    var r := ShiftRegister.Run(Wiring(d), c, WriteDigit(d, position, pattern));
    WriteDigitLatches(d, c, position, pattern);
    assert r.output[8..] == MsbBits(pattern);
    ValueOfMsbBits(pattern);
    AddressSelects(position, pattern);
  }

  /** Writes carry no hidden state: repeating a write repeats its trace and
      leaves the display exactly as one write does. */
  lemma WriteDigitRepeat(d: Driver, c: ShiftRegister.Chip, position: uint8, pattern: uint8)
    requires DistinctPins(d) && ShiftRegister.Idle(c) && |c.register| == 16
    ensures var t := WriteDigit(d, position, pattern);
      ShiftRegister.Run(Wiring(d), c, t + t).output == ShiftRegister.Run(Wiring(d), c, t).output
  {
    var w := Wiring(d);
    var t := WriteDigit(d, position, pattern);
    ShiftRegister.RunAppend(w, c, t, t);
    WriteDigitLatches(d, c, position, pattern);
    WriteDigitLatches(d, ShiftRegister.Run(w, c, t), position, pattern);
  }

  /** initialiseOutputPin: configure pin as an output and drive it to state. */
  function InitialiseOutputPin(pin: Pin, state: bool): Trace {
    [Configure(pin), Drive(pin, state)]
  }

  /** The driver after Initialise, and the GPIO activity of the call. */
  datatype Setup = Setup(driver: Driver, trace: Trace)

  /** Initialise: data, clock and latch are configured and driven low in that
      order; the optional trailing argument replaces the pulse delay, and
      without it the previous delay stays. */
  function Initialise(d: Driver, dataPin: uint8, clockPin: uint8, latchPin: uint8, pulseMicroseconds: seq<uint16>): (r: Setup)
    ensures r.driver.data == dataPin && r.driver.clock == clockPin && r.driver.latch == latchPin
    ensures |pulseMicroseconds| >= 1 ==> r.driver.pulseDelay == pulseMicroseconds[0]
    ensures |pulseMicroseconds| == 0 ==> r.driver.pulseDelay == d.pulseDelay
    ensures FinalLevel(r.trace, dataPin) == Some(false)
    ensures FinalLevel(r.trace, clockPin) == Some(false)
    ensures FinalLevel(r.trace, latchPin) == Some(false)
    ensures r.trace == [Configure(dataPin), Low(dataPin), Configure(clockPin), Low(clockPin),
                        Configure(latchPin), Low(latchPin)]
    ensures forall p :: Highs(r.trace, p) == 0
  {
    var trace := InitialiseOutputPin(dataPin, false) + InitialiseOutputPin(clockPin, false)
                 + InitialiseOutputPin(latchPin, false);
    InitialiseLevels(dataPin, clockPin, latchPin, dataPin);
    InitialiseLevels(dataPin, clockPin, latchPin, clockPin);
    InitialiseLevels(dataPin, clockPin, latchPin, latchPin);
    forall p ensures Highs(trace, p) == 0 {
      InitialiseNeverHigh(dataPin, clockPin, latchPin, p);
    }
    var delay := if |pulseMicroseconds| >= 1 then pulseMicroseconds[0] else d.pulseDelay;
    Setup(Driver(dataPin, clockPin, latchPin, delay), trace)
  }

  lemma OutputPinLevels(pin: Pin, p: Pin)
    ensures Levels(InitialiseOutputPin(pin, false), p) == (if pin == p then [false] else [])
    ensures Highs(InitialiseOutputPin(pin, false), p) == 0
  {
    var t := InitialiseOutputPin(pin, false);
    assert t[1..][1..] == [];
    assert Levels(t[1..], p) == (if pin == p then [false] else []);
    assert Highs(t[1..], p) == 0;
  }

  /** Each pin initialised ends driven low. */
  lemma InitialiseLevels(dataPin: Pin, clockPin: Pin, latchPin: Pin, p: Pin)
    requires p == dataPin || p == clockPin || p == latchPin
    ensures var t := InitialiseOutputPin(dataPin, false) + InitialiseOutputPin(clockPin, false)
                     + InitialiseOutputPin(latchPin, false);
      FinalLevel(t, p) == Some(false)
  {
    var a, b, c := InitialiseOutputPin(dataPin, false), InitialiseOutputPin(clockPin, false),
                   InitialiseOutputPin(latchPin, false);
    LevelsAppend(a + b, c, p);
    LevelsAppend(a, b, p);
    OutputPinLevels(dataPin, p);
    OutputPinLevels(clockPin, p);
    OutputPinLevels(latchPin, p);
  }

  /** Initialise never raises a line, on any pin. */
  lemma InitialiseNeverHigh(dataPin: Pin, clockPin: Pin, latchPin: Pin, p: Pin)
    ensures var t := InitialiseOutputPin(dataPin, false) + InitialiseOutputPin(clockPin, false)
                     + InitialiseOutputPin(latchPin, false);
      Highs(t, p) == 0
  {
    var a, b, c := InitialiseOutputPin(dataPin, false), InitialiseOutputPin(clockPin, false),
                   InitialiseOutputPin(latchPin, false);
    HighsAppend(a + b, c, p);
    HighsAppend(a, b, p);
    OutputPinLevels(dataPin, p);
    OutputPinLevels(clockPin, p);
    OutputPinLevels(latchPin, p);
  }

  /** After Initialise the display's inputs are idle (all three lines low),
      whatever state they were in. */
  lemma InitialiseIdles(d: Driver, dataPin: uint8, clockPin: uint8, latchPin: uint8,
                        pulseMicroseconds: seq<uint16>, c: ShiftRegister.Chip)
    requires ShiftRegister.Distinct(ShiftRegister.Wiring(dataPin, clockPin, latchPin))
    ensures var r := Initialise(d, dataPin, clockPin, latchPin, pulseMicroseconds);
      var after := ShiftRegister.Run(Wiring(r.driver), c, r.trace);
      && ShiftRegister.Idle(after) && !after.data
      && after.register == c.register && after.output == c.output
  {
    var r := Initialise(d, dataPin, clockPin, latchPin, pulseMicroseconds);
    var w := Wiring(r.driver);
    var t := r.trace;
    var c1 := c.(data := false);
    var c2 := c1.(clock := false);
    var c3 := c2.(latch := false);
    assert ShiftRegister.Step(w, c, t[0]) == c;
    assert ShiftRegister.Step(w, c, t[1]) == c1;
    assert ShiftRegister.Step(w, c1, t[2]) == c1;
    assert ShiftRegister.Step(w, c1, t[3]) == c2;
    assert ShiftRegister.Step(w, c2, t[4]) == c2;
    assert ShiftRegister.Step(w, c2, t[5]) == c3;
    assert t[1..][1..][1..][1..][1..][1..] == [];
    assert ShiftRegister.Run(w, c2, t[1..][1..][1..][1..][1..]) == c3;
    assert ShiftRegister.Run(w, c2, t[1..][1..][1..][1..]) == c3;
    assert ShiftRegister.Run(w, c1, t[1..][1..][1..]) == c3;
    assert ShiftRegister.Run(w, c1, t[1..][1..]) == c3;
    assert ShiftRegister.Run(w, c, t[1..]) == c3;
  }

  /** The configured delay governs every wait of every later write: the
      optional argument when given, the previous delay (150 µs from the
      start) when not. */
  lemma InitialiseSetsDelay(d: Driver, dataPin: uint8, clockPin: uint8, latchPin: uint8,
                            pulseMicroseconds: seq<uint16>, position: uint8, pattern: uint8)
    ensures var r := Initialise(d, dataPin, clockPin, latchPin, pulseMicroseconds);
      var delay := if |pulseMicroseconds| >= 1 then pulseMicroseconds[0] else d.pulseDelay;
      && SleepsAre(WriteDigit(r.driver, position, pattern), delay)
      && Elapsed(WriteDigit(r.driver, position, pattern)) == 17 * delay
    ensures Initialise(Unconfigured, dataPin, clockPin, latchPin, []).driver.pulseDelay == 150
  {
  }

  /** One call of a sequence of WriteDigit calls. */
  datatype Write = Write(position: uint8, pattern: uint8)

  /** The trace of several writes: each write's trace, in call order. */
  function WriteAll(d: Driver, writes: seq<Write>): (t: Trace)
    ensures |t| == 67 * |writes|
  {
    if writes == [] then []
    else WriteDigit(d, writes[0].position, writes[0].pattern) + WriteAll(d, writes[1..])
  }

  lemma {:induction false} WriteAllAppend(d: Driver, a: seq<Write>, b: seq<Write>)
    ensures WriteAll(d, a + b) == WriteAll(d, a) + WriteAll(d, b)
    decreases |a|
  {
    if a != [] {
      var head := WriteDigit(d, a[0].position, a[0].pattern);
      assert (a + b)[0] == a[0] && (a + b)[1..] == a[1..] + b;
      assert WriteAll(d, a + b) == head + WriteAll(d, a[1..] + b);
      WriteAllAppend(d, a[1..], b);
      Regroup(head, WriteAll(d, a[1..]), WriteAll(d, b));
    } else {
      assert a + b == b;
    }
  }

  /** Extending the writes by one appends that write's trace. */
  lemma WriteAllExtend(d: Driver, writes: seq<Write>, n: nat)
    requires n < |writes|
    ensures WriteAll(d, writes[..n + 1])
      == WriteAll(d, writes[..n]) + WriteDigit(d, writes[n].position, writes[n].pattern)
  {
    assert writes[..n + 1] == writes[..n] + [writes[n]];
    WriteAllAppend(d, writes[..n], [writes[n]]);
    WriteAllSingle(d, writes[n]);
  }

  lemma WriteAllSingle(d: Driver, w: Write)
    ensures WriteAll(d, [w]) == WriteDigit(d, w.position, w.pattern)
  {
    assert [w][1..] == [];
  }

  /** After a sequence of writes the outputs hold the last one, and exactly
      one latch pulse was given per write. */
  lemma WriteAllLatchesLast(d: Driver, c: ShiftRegister.Chip, writes: seq<Write>)
    requires DistinctPins(d) && ShiftRegister.Idle(c) && |c.register| == 16
    ensures Highs(WriteAll(d, writes), d.latch) == |writes|
    ensures var r := ShiftRegister.Run(Wiring(d), c, WriteAll(d, writes));
      && ShiftRegister.Idle(r) && |r.register| == 16
      && (writes != [] ==> r.output == MsbBits(Address(writes[|writes| - 1].position))
                                     + MsbBits(writes[|writes| - 1].pattern))
  {
    WriteAllLatchCount(d, writes);
    WriteAllOutputs(d, c, writes);
  }

  lemma {:induction false} WriteAllLatchCount(d: Driver, writes: seq<Write>)
    requires DistinctPins(d)
    ensures Highs(WriteAll(d, writes), d.latch) == |writes|
    decreases |writes|
  {
    if writes != [] {
      var first := WriteDigit(d, writes[0].position, writes[0].pattern);
      HighsAppend(first, WriteAll(d, writes[1..]), d.latch);
      WriteDigitLatchOnce(d, writes[0].position, writes[0].pattern);
      WriteAllLatchCount(d, writes[1..]);
    }
  }

  lemma {:induction false} WriteAllOutputs(d: Driver, c: ShiftRegister.Chip, writes: seq<Write>)
    requires DistinctPins(d) && ShiftRegister.Idle(c) && |c.register| == 16
    ensures var r := ShiftRegister.Run(Wiring(d), c, WriteAll(d, writes));
      && ShiftRegister.Idle(r) && |r.register| == 16
      && (writes != [] ==> r.output == MsbBits(Address(writes[|writes| - 1].position))
                                     + MsbBits(writes[|writes| - 1].pattern))
    decreases |writes|
  {
    if writes != [] {
      var w := Wiring(d);
      var first := WriteDigit(d, writes[0].position, writes[0].pattern);
      var rest := WriteAll(d, writes[1..]);
      assert WriteAll(d, writes) == first + rest;
      ShiftRegister.RunAppend(w, c, first, rest);
      WriteDigitLatches(d, c, writes[0].position, writes[0].pattern);
      var c1 := ShiftRegister.Run(w, c, first);
      WriteAllOutputs(d, c1, writes[1..]);
      var r := ShiftRegister.Run(w, c1, rest);
      assert ShiftRegister.Run(w, c, WriteAll(d, writes)) == r;
      if writes[1..] != [] {
        LastOfTail(writes);
      } else {
        assert rest == [] && r == c1;
      }
    }
  }

  lemma LastOfTail<T>(s: seq<T>)
    requires |s| >= 2
    ensures s[1..][|s[1..]| - 1] == s[|s| - 1]
  {
  }

  lemma FirstAddressBits()
    ensures MsbBits(Address(0)) == [false, false, false, false, false, false, false, true]
  {
    ShlOne(0);
    AddressOneHot(0);
  }

  lemma Digit0Bits()
    ensures MsbBits(Digit0) == [true, true, false, false, false, false, false, false]
  {
    ValueOfEight([true, true, false, false, false, false, false, false]);
    MsbBitsOfValue([true, true, false, false, false, false, false, false]);
  }

  /** Initialise(9, 8, 7) from the package's starting state. */
  lemma ExampleSetup()
    ensures Initialise(Unconfigured, 9, 8, 7, []).driver == Driver(9, 8, 7, 150)
    ensures Initialise(Unconfigured, 9, 8, 7, []).trace
         == [Configure(9), Low(9), Configure(8), Low(8), Configure(7), Low(7)]
  {
  }

  /** The end-to-end example of the library's use: Initialise(9, 8, 7) and
      then writing "0" to the left-most panel clocks out 00000001 and then
      11000000, gives 17 pulses of 150 µs (the clock high for 2400 µs in
      all, the latch for 150 µs, 2550 µs of waiting), and latches exactly
      those 16 bits. */
  lemma FirstDigitExample(c: ShiftRegister.Chip)
    requires |c.register| == 16
    ensures var r := Initialise(Unconfigured, 9, 8, 7, []);
      var t := WriteDigit(r.driver, 0, Digit0);
      && Levels(t, 9) == [false, false, false, false, false, false, false, true,
                          true, true, false, false, false, false, false, false]
      && Highs(t, 8) + Highs(t, 7) == 17
      && SleepsAre(t, 150)
      && Elapsed(t) == 2550
      && Held(t, 8, true, false) == 2400 && Held(t, 7, true, false) == 150
      && ShiftRegister.Run(Wiring(r.driver), c, r.trace + t).output == Levels(t, 9)
  {
    var r := Initialise(Unconfigured, 9, 8, 7, []);
    ExampleSetup();
    var d := Driver(9, 8, 7, 150);
    var t := WriteDigit(d, 0, Digit0);
    ExampleLines(d);
    ExampleTiming(d);
    InitialiseIdles(Unconfigured, 9, 8, 7, [], c);
    var c1 := ShiftRegister.Run(Wiring(d), c, r.trace);
    ShiftRegister.RunAppend(Wiring(d), c, r.trace, t);
    WriteDigitLatches(d, c1, 0, Digit0);
  }

  lemma ExampleTiming(d: Driver)
    requires d == Driver(9, 8, 7, 150)
    ensures var t := WriteDigit(d, 0, Digit0);
      Elapsed(t) == 2550 && Held(t, 8, true, false) == 2400 && Held(t, 7, true, false) == 150
  {
    WriteDigitPulseWidths(d, 0, Digit0);
  }

  lemma ExampleLines(d: Driver)
    requires d == Driver(9, 8, 7, 150)
    ensures var t := WriteDigit(d, 0, Digit0);
      && Levels(t, 9) == MsbBits(Address(0)) + MsbBits(Digit0)
      && Levels(t, 9) == [false, false, false, false, false, false, false, true,
                          true, true, false, false, false, false, false, false]
      && Highs(t, 8) + Highs(t, 7) == 17
  {
    WriteDigitLines(d, 0, Digit0);
    FirstWriteBits();
  }

  lemma FirstWriteBits()
    ensures MsbBits(Address(0)) + MsbBits(Digit0) == [false, false, false, false, false, false, false, true,
                                                      true, true, false, false, false, false, false, false]
  {
    FirstAddressBits();
    Digit0Bits();
  }
}

=== FILE: yl3driving.dfy ===
/** The stand-alone copy of the driver in program yl3driving: the same
    protocol written out inline, with the pins fixed to GP9 (data), GP8
    (clock) and GP7 (latch), the pulse fixed at 150 µs, and its own digit
    array. Its routines are loops and calls, so they are methods here; each
    is proved to emit exactly what the library emits for those settings. */
module Yl3Driving {
  import opened Bytes
  import opened Gpio
  import opened Optional
  import Demo
  import ShiftRegister
  import Yl3

  const DataPin: Pin := 9
  const ClockPin: Pin := 8
  const LatchPin: Pin := 7

  /** The program's fixed settings, seen as a library driver. */
  const Fixed := Yl3.Driver(DataPin, ClockPin, LatchPin, 150)

  /** The program's DIGITS array: entry for entry the library's table. */
  function Digits(): (table: seq<uint8>)
    ensures |table| == 12
    ensures forall i :: 0 <= i < 12 ==> table[i] == Yl3.Digits()[i]
  {
    [0xC0, 0xF9, 0xA4, 0xB0, 0x99, 0x92, 0x82, 0xF8, 0x80, 0x90, 0x7F, 0xFF]
  }

  /** pulsePin: high, a fixed 150 µs, low. */
  method PulsePin(pin: Pin) returns (t: Trace)
    ensures t == Yl3.PulsePin(Fixed, pin)
    ensures SleepsAre(t, 150) && FinalLevel(t, pin) == Some(false)
  {
    t := [High(pin)];
    t := t + [Sleep(150)];
    t := t + [Low(pin)];
  }

  /** shiftOut: eight passes of test-the-top-bit, set data, pulse clock, shift left. */
  method ShiftOut(value: uint8) returns (t: Trace)
    ensures t == Yl3.Serial(Fixed, MsbBits(value))
  {
    t := [];
    var v := value;
    var bit := 0;
    while bit < 8
      invariant 0 <= bit <= 8
      invariant MsbBits(v)[..8 - bit] == MsbBits(value)[bit..]
      invariant t == Yl3.Serial(Fixed, MsbBits(value)[..bit])
    {
      var level := Bit(v, 7);
      var pulse := PulsePin(ClockPin);
      var step := [Drive(DataPin, level)] + pulse;
      ShiftPass(value, v, bit);
      assert step == Yl3.BitStep(Fixed, MsbBits(value)[bit]);
      Yl3.SerialExtend(Fixed, MsbBits(value), bit);
      t := t + step;
      v := Shl8(v, 1);
      bit := bit + 1;
    }
    assert MsbBits(value)[..8] == MsbBits(value);
  }

  /** One pass of shiftOut's loop: the top bit of the shifted copy is the
      next bit of value, and shifting once more moves on to the one after. */
  lemma ShiftPass(value: uint8, v: uint8, bit: nat)
    requires bit < 8 && MsbBits(v)[..8 - bit] == MsbBits(value)[bit..]
    ensures Bit(v, 7) == MsbBits(value)[bit]
    ensures MsbBits(Shl8(v, 1))[..8 - (bit + 1)] == MsbBits(value)[bit + 1..]
  {
    assert MsbBits(v)[..8 - bit][0] == MsbBits(value)[bit..][0];
    ShlMsbBits(v);
  }

  /** writeDigit: address byte, pattern byte, latch pulse. */
  method WriteDigit(position: uint8, pattern: uint8) returns (t: Trace)
    ensures t == Yl3.WriteDigit(Fixed, position, pattern)
  {
    var address := ShiftOut(Shl8(1, position));
    var segments := ShiftOut(pattern);
    var latch := PulsePin(LatchPin);
    t := address + segments + latch;
    Yl3.SerialAppend(Fixed, MsbBits(Yl3.Address(position)), MsbBits(pattern));
    var expected := Yl3.WriteDigit(Fixed, position, pattern);
    assert expected == expected[..64] + expected[64..];
  }

  /** initOutputPin: the library's initialiseOutputPin under another name. */
  function InitOutputPin(pin: Pin, state: bool): (t: Trace)
    ensures t == Yl3.InitialiseOutputPin(pin, state)
  {
    [Configure(pin), Drive(pin, state)]
  }

  /** main's set-up: latch, then clock, then data, each configured and driven low. */
  function MainSetup(): (t: Trace)
    ensures t == [Configure(LatchPin), Low(LatchPin), Configure(ClockPin), Low(ClockPin),
                  Configure(DataPin), Low(DataPin)]
  {
    InitOutputPin(LatchPin, false) + InitOutputPin(ClockPin, false) + InitOutputPin(DataPin, false)
  }

  /** Whatever the display's inputs were, main's set-up leaves them idle, as
      the library's Initialise does, though in the opposite pin order. */
  lemma MainSetupIdles(c: ShiftRegister.Chip)
    ensures var after := ShiftRegister.Run(Yl3.Wiring(Fixed), c, MainSetup());
      && ShiftRegister.Idle(after) && !after.data
      && after.register == c.register && after.output == c.output
    ensures MainSetup() != Yl3.Initialise(Yl3.Unconfigured, DataPin, ClockPin, LatchPin, []).trace
    ensures multiset(MainSetup()) == multiset(Yl3.Initialise(Yl3.Unconfigured, DataPin, ClockPin, LatchPin, []).trace)
    ensures Yl3.Initialise(Yl3.Unconfigured, DataPin, ClockPin, LatchPin, []).driver == Fixed
  {
    MainSetupRun(c);
    MainSetupReorders();
  }

  /** main's set-up lowers latch, clock and data and touches nothing else. */
  lemma MainSetupRun(c: ShiftRegister.Chip)
    ensures ShiftRegister.Run(Yl3.Wiring(Fixed), c, MainSetup())
      == c.(latch := false, clock := false, data := false)
  {
    var w := Yl3.Wiring(Fixed);
    var t := MainSetup();
    var c1 := c.(latch := false);
    var c2 := c1.(clock := false);
    var c3 := c2.(data := false);
    assert ShiftRegister.Step(w, c, t[0]) == c;
    assert ShiftRegister.Step(w, c, t[1]) == c1;
    assert ShiftRegister.Step(w, c1, t[2]) == c1;
    assert ShiftRegister.Step(w, c1, t[3]) == c2;
    assert ShiftRegister.Step(w, c2, t[4]) == c2;
    assert ShiftRegister.Step(w, c2, t[5]) == c3;
    assert t[1..][1..][1..][1..][1..][1..] == [];
    assert ShiftRegister.Run(w, c2, t[1..][1..][1..][1..][1..]) == c3;
    assert ShiftRegister.Run(w, c2, t[1..][1..][1..][1..]) == c3;
    assert ShiftRegister.Run(w, c1, t[1..][1..][1..]) == c3;
    assert ShiftRegister.Run(w, c1, t[1..][1..]) == c3;
    assert ShiftRegister.Run(w, c, t[1..]) == c3;
  }

  /** main's set-up and the library's Initialise emit the same six events,
      in a different order. */
  lemma MainSetupReorders()
    ensures MainSetup() != Yl3.Initialise(Yl3.Unconfigured, DataPin, ClockPin, LatchPin, []).trace
    ensures multiset(MainSetup()) == multiset(Yl3.Initialise(Yl3.Unconfigured, DataPin, ClockPin, LatchPin, []).trace)
  {
    var x, y, z := [Configure(DataPin), Low(DataPin)], [Configure(ClockPin), Low(ClockPin)],
                   [Configure(LatchPin), Low(LatchPin)];
    assert MainSetup() == z + y + x;
    assert Yl3.Initialise(Yl3.Unconfigured, DataPin, ClockPin, LatchPin, []).trace == x + y + z;
    assert (z + y + x)[0] != (x + y + z)[0];
    SwapOuter(x, y, z);
  }

  /** Exchanging the first and last of three pieces keeps the same events. */
  lemma SwapOuter(x: Trace, y: Trace, z: Trace)
    ensures multiset(z + y + x) == multiset(x + y + z)
  {
    calc {
      multiset(z + y + x);
      multiset(z) + multiset(y) + multiset(x);
      multiset(x) + multiset(y) + multiset(z);
      multiset(x + y + z);
    }
  }


  /** The body of displayDemo's loop up to the bookkeeping: the six random
      numerals, the blank panel and the chaser, as the library demo's frame. */
  method DrawFrame(values: seq<nat>, segment: int) returns (t: Trace)
    requires Demo.ValidValues(values)
    ensures t == Yl3.WriteAll(Fixed, Demo.FrameWrites(values, segment))
  {
    var writes := Demo.FrameWrites(values, segment);
    var table := Digits();
    t := [];
    var position: uint8 := 0;
    while position < 6
      invariant 0 <= position <= 6
      invariant t == Yl3.WriteAll(Fixed, writes[..position])
    {
      var wd := WriteDigit(position, table[values[position]]);
      FrameWritesParts(values, segment);
      Yl3.WriteAllExtend(Fixed, writes, position as nat);
      t := t + wd;
      position := position + 1;
    }
    var blank := WriteDigit(6, 0xFF);
    var chaser := WriteDigit(7, Not8(Wrap8(segment)));
    LastTwo(values, segment);
    t := t + blank + chaser;
  }

  /** Which call each of the frame's writes is. */
  lemma FrameWritesParts(values: seq<nat>, segment: int)
    requires Demo.ValidValues(values)
    ensures var writes := Demo.FrameWrites(values, segment);
      && (forall p :: 0 <= p < 6 ==> writes[p] == Yl3.Write(p as uint8, Yl3.Digits()[values[p]]))
      && writes[6..] == [Yl3.Write(6, 0xFF), Yl3.Write(7, Demo.ChaserPattern(segment))]
  {
  }

  lemma WriteAllPair(d: Yl3.Driver, a: Yl3.Write, b: Yl3.Write)
    ensures Yl3.WriteAll(d, [a, b])
      == Yl3.WriteDigit(d, a.position, a.pattern) + Yl3.WriteDigit(d, b.position, b.pattern)
  {
    assert [a, b][1..] == [b];
    assert [b][1..] == [];
  }

  lemma SplitLastTwo(d: Yl3.Driver, writes: seq<Yl3.Write>, a: Yl3.Write, b: Yl3.Write)
    requires |writes| == 8 && writes[6..] == [a, b]
    ensures Yl3.WriteAll(d, writes) == Yl3.WriteAll(d, writes[..6])
      + Yl3.WriteDigit(d, a.position, a.pattern) + Yl3.WriteDigit(d, b.position, b.pattern)
  {
    var head := writes[..6];
    assert writes == head + [a, b];
    Yl3.WriteAllAppend(d, head, [a, b]);
    WriteAllPair(d, a, b);
    Regroup(Yl3.WriteAll(d, head), Yl3.WriteDigit(d, a.position, a.pattern),
            Yl3.WriteDigit(d, b.position, b.pattern));
  }

  lemma LastTwo(values: seq<nat>, segment: int)
    requires Demo.ValidValues(values)
    ensures var writes := Demo.FrameWrites(values, segment);
      Yl3.WriteAll(Fixed, writes) == Yl3.WriteAll(Fixed, writes[..6])
        + Yl3.WriteDigit(Fixed, 6, 0xFF) + Yl3.WriteDigit(Fixed, 7, Not8(Wrap8(segment)))
  {
    var writes := Demo.FrameWrites(values, segment);
    FrameWritesParts(values, segment);
    var a := Yl3.Write(6, 0xFF);
    var b := Yl3.Write(7, Demo.ChaserPattern(segment));
    SplitLastTwo(Fixed, writes, a, b);
  }

  /** The bookkeeping at the end of displayDemo's loop, with the two clock
      readings and the freshly drawn numerals as parameters. */
  method Bookkeeping(s: Demo.DemoState, now: int, drawn: seq<nat>) returns (r: Demo.DemoState)
    requires Demo.Valid(s) && Demo.ValidValues(drawn)
    ensures r == Demo.Tick(s, now, drawn)
  {
    var segment := s.segment;
    var startCircle := s.startCircle;
    if now - startCircle > Demo.CircleDelay {
      if segment > 1 {
        segment := segment / 2;
      } else {
        segment := segment * 32;
      }
      startCircle := now;
    }
    var values := s.values;
    var startRandom := s.startRandom;
    if now - startRandom > Demo.RandomDelay {
      values := drawn;
      startRandom := now;
    }
    r := Demo.DemoState(values, segment, startCircle, startRandom);
  }

  /** One pass of displayDemo's loop: the same trace and the same next state
      as the library demo. */
  method DisplayDemoPass(s: Demo.DemoState, now: int, drawn: seq<nat>) returns (t: Trace, r: Demo.DemoState)
    requires Demo.Valid(s) && Demo.ValidValues(drawn)
    ensures t == Yl3.WriteAll(Fixed, Demo.FrameWrites(s.values, s.segment))
    ensures r == Demo.Tick(s, now, drawn)
  {
    t := DrawFrame(s.values, s.segment);
    r := Bookkeeping(s, now, drawn);
  }
}
